=== FILE: README.md ===
# Catalog listing and creation pipeline, modelled in Dafny

This project models the decision logic of a Go catalog service (elangreza
superindo / lion-superindo). It covers:

- the request normalisers that coerce paging and check `field:direction`
  sort tokens;
- the relational query builder. The row query and the count query are built
  as a syntax tree over one shared filter, and the filter's meaning on a row
  is given through PostgreSQL `LIKE`;
- the transaction helper `runInTx` and the repository's two-statement
  product creation;
- the product service, which counts first, derives the page count and
  checks for existing products before inserting;
- the Redis cache layout: one hash per request fingerprint holding a row
  page per ordering key plus a shared `count` field, and a prefix-scoped
  flush;
- the error taxonomy and the HTTP status classification.

The listing request types and the repository code come from two revisions
of the repository with different field sets. Each file is modelled against
its own revision:

- `Pagination` models the paging/ordering-key normaliser.
- `ProductParams` models the listing and creation requests.
- `Domain.Product` carries quantity and a nullable update time, as the
  query and service code use them.
- The cache adapter is generic over its row type.

Layout:

- `wrappers.dfy`: `Option` and `Result`.
- `strings.dfy`: the Go `strings` functions used, namely `TrimSpace` (full
  `unicode.IsSpace` set), `ToLower`, `Split`, `Join`, prefix/suffix and
  containment.
- `decimal.dfy`: `strconv.Atoi` and `Itoa` for 64-bit `int`, and the
  `uint64` conversion.
- `errors.dfy`: the error values, their `Error()` texts, `HttpStatusCode`
  and `errors.As`.
- `handler.dfy`: the status and message choice in `handler.Error`.
- `sortmap.dfy`: the shared check-and-assign loop over sort tokens, with a
  "last token wins" characterisation.
- `pagination.dfy`, `product_params.dfy`: the request normalisers.
- `like.dfy`: PostgreSQL `LIKE`, and its relation to substring containment.
- `domain.dfy`, `query.dfy`: scanned rows and the query builder.
- `tx.dfy`: `runInTx` and the repository's `CreateProduct`.
- `service.dfy`: `ProductService`.
- `cache.dfy`: the Redis adapter.

Go's mutating `Validate()` methods become functions from the receiver to
the receiver-after plus the returned error. Repositories and the Redis
client become function parameters or an explicit key space. Every call the
service makes is recorded, so "the repository is not called" can be stated.
Go map iteration order is unspecified, so it is taken as a parameter that
must list each key once.

## Model

| member | source | states |
|---|---|---|
| GoStrings.TrimSpace | internal/params/product.go:50 | the result is a contiguous slice of the input with no white space at either end, and everything dropped is white space |
| GoStrings.TrimSpaceIdempotent | internal/params/product.go:50 | trimming twice equals trimming once |
| GoStrings.ToLowerFixesLower | internal/params/product.go:107 | lower-casing an already lower-case text changes nothing |
| GoStrings.Split | internal/params/pagination.go:42 | at least one piece; no piece contains the separator; joining the pieces with the separator gives back the input |
| GoStrings.SplitLength | internal/params/pagination.go:42-43 | the number of pieces is the number of separators plus one |
| GoStrings.SplitTrailingSeparator | internal/params/pagination.go:34 | a trailing separator adds exactly one empty last piece |
| Decimal.ToUint64 | internal/postgresql/product.go:65 | `uint64(x)` is the unique value below 2^64 congruent to x, and is x itself when x is already in range |
| Decimal.Atoi | internal/postgresql/product.go:35 | succeeds exactly on optionally signed digit strings whose value fits in int64, and returns that value |
| Decimal.Itoa | internal/params/pagination.go:59 | decimal text: non-empty, no ':' or ',', digits with a leading '-' only for negatives, and no leading zero except for 0 itself |
| Decimal.AtoiItoa | internal/redis/product.go:56 | parsing the decimal text of any int64 gives the number back |
| Decimal.ItoaInjective | internal/params/pagination.go:59 | distinct numbers have distinct decimal texts |
| Errs.Message | internal/redis/product.go:58 | a `%w` wrapper's text is its context, ": ", then the wrapped error's text whole; a plain error's text is the text it was made with |
| Errs.AsSearchesChain | internal/handler/handler.go:31-39 | `errors.As` reports a kind exactly when some error on the unwrap chain (the error, then what each `%w` wrapper holds) has it; a plain text error has no kind |
| Errs.ValidationText | pkg/error/validation.go:13-23 | the text always begins with "validation error"; an empty Message gives exactly that even when Err is set; otherwise Err's text wins over Message |
| Errs.AlreadyExistText | pkg/error/already_exist.go:12-18 | the text always ends with "already exist"; it is exactly that for an empty Message, and otherwise Message followed by " already exist" |
| Errs.MethodNotAllowedText | pkg/error/method_not_allowed.go:12-14 | the text starts with "method " and ends with " not allowed", and the method is recovered by removing both |
| Errs.MethodNotAllowedInjective | pkg/error/method_not_allowed.go:12-14 | distinct methods give distinct texts |
| Errs.HttpStatusCode | pkg/error/validation.go:25-27 | 400 for validation errors, 409 for already-exist errors, 405 for method-not-allowed errors, whatever their fields |
| Handler.Classify | internal/handler/handler.go:28-47 | the first kind `errors.As` finds, in the order already-exist, validation, method-not-allowed, decides the status, and the message is the error text; anything else gives 500 and "server error" |
| Handler.StatusArgumentIgnored | internal/handler/handler.go:28-47 | the status passed in never affects the response |
| Handler.StatusIsOneOfFour | internal/handler/handler.go:30-47 | the status is always one of 409, 400, 405, 500 |
| Handler.TypedTextIsLong | internal/handler/handler.go:31-42 | a typed error's text, even wrapped, is longer than "server error" |
| Handler.ServerErrorTextOnlyFor500 | internal/handler/handler.go:43-46 | the message is "server error" exactly when the status is 500, so the generic text never masks a typed error |
| SortMaps.AssignIsLastWins | internal/params/pagination.go:54 | after assigning bindings in order, a field named by some binding holds the last such binding's direction, other fields keep their prior value, and no other key appears |
| SortMaps.ParseSorts | internal/params/pagination.go:41-56 | no error exactly when every token passes; on success the map is the in-order assignment of all bindings; on error the error is the first failing token's, and the map holds exactly the bindings before it |
| SortMaps.ParseSortsLastWins | internal/params/product.go:74 | after a clean run, a field is in the map exactly when some token names it, with the last such token's direction |
| Pagination.Expand | internal/params/pagination.go:33-37 | an entry's pieces contain no comma and join back, with commas, to the entry |
| Pagination.ExpandSorts | internal/params/pagination.go:31-38 | no expanded token contains a comma, and comma-free entries pass through unchanged |
| Pagination.ExpandSortsIsFlatSplit | internal/params/pagination.go:32-37 | expansion equals splitting every entry on commas and concatenating the pieces in order |
| Pagination.CheckToken | internal/params/pagination.go:42-52 | a token passes exactly when it has one ':' and a trimmed, lower-cased direction of asc or desc; otherwise "<token> is not valid sort format" or "not valid sort direction" |
| Pagination.OrderingKey | internal/params/pagination.go:59 | every ordering key contains ':' |
| Pagination.Validate | internal/params/pagination.go:20-62 | page below 1 becomes 1 and limit below 1 becomes 5, others unchanged; no sorts keep the map as it was and succeed; error exactly when some expanded token fails, that error being the first failing token's; the ordering key is left untouched on error and set from limit, page and raw tokens on success |
| Pagination.ValidatedSortMapLastWins | internal/params/pagination.go:54 | when every expanded token passes, the map holds exactly the fields some token names, each with the last such token's direction |
| Pagination.MalformedTokenIsNamed | internal/params/pagination.go:43-45 | the format error text begins with the offending token |
| Pagination.EmptyTokenMalformed | internal/params/pagination.go:42-45 | the empty token fails with " is not valid sort format" |
| Pagination.TrailingCommaFails | internal/params/pagination.go:33-45 | any entry ending in a comma makes validation fail |
| Pagination.OrderingKeyDeterminesPaging | internal/params/pagination.go:59 | equal ordering keys imply equal limit, equal page and equal concatenated tokens |
| ProductParams.CheckToken | internal/params/product.go:55-72 | a token passes exactly when it has one ':', its raw field is updated_at, price or name, and its lower-cased direction is asc or desc; the first failing check picks "not valid sort format", "not valid sort value" or "not valid sort direction" |
| ProductParams.Validate | internal/params/product.go:40-81 | paging defaults, search trimmed even when sorts fail; nil map kept without sorts; error exactly when some token fails, being the first failing token's; key unchanged on error and the serialised exported fields on success |
| ProductParams.ValidatedSortMapLastWins | internal/params/product.go:52-75 | after success a field is in the map exactly when some token names it, with the last such token's direction |
| ProductParams.KeyIgnoresUnexportedFields | internal/params/product.go:78-79 | the key does not depend on what the unexported map and key held before |
| ProductParams.NoColonIsFormatError | internal/params/product.go:55-58 | `test` fails with "not valid sort format" |
| ProductParams.FieldIsCaseSensitive | internal/params/product.go:60-65 | `Price:asc` fails with "not valid sort value" |
| ProductParams.DirectionIsCaseInsensitive | internal/params/product.go:67-72 | `price:DESC` passes |
| ProductParams.ValidateCreate | internal/params/product.go:98-117 | passes exactly when name and type are non-empty and quantity and price are non-negative; otherwise the first of the four messages in source order; the type is lower-cased exactly when name and type are non-empty, and nothing else changes |
| ProductParams.BlankNamePasses | internal/params/product.go:99-101 | a name of only spaces passes |
| ProductParams.ValidateCreateIdempotent | internal/params/product.go:98-117 | after success the type is lower case and validating again changes nothing |
| SqlLike.LikeMeansContains | internal/postgresql/product.go:38 | for a text without `%`, `_` or `\`, `%x%` matches exactly the strings containing x |
| SqlLike.LikeOfContained | internal/postgresql/product.go:38 | a text without `\` matches, as `%x%`, every string containing it |
| SqlLike.UnderscoreIsWildcard | internal/postgresql/product.go:38 | `_` in a search text matches any character, so `a_c` finds `abc` |
| ProductQuery.SearchPredicates | internal/postgresql/product.go:34-40 | none for empty search; otherwise exactly one, an id comparison when the text parses as an int64 and a lower-cased `%…%` name match otherwise |
| ProductQuery.TypePredicates | internal/postgresql/product.go:42-44 | one membership predicate over the types when there are any, none otherwise |
| ProductQuery.ListQuery | internal/postgresql/product.go:31-47 | a bare select from `products p` whose filter is the search predicate followed by the type predicate |
| ProductQuery.ListQuerySelectsWanted | internal/postgresql/product.go:34-44 | a row passes the filter exactly when it meets the id or name condition of a non-empty search and the type condition of non-empty types |
| ProductQuery.NameSearchIsContainment | internal/postgresql/product.go:38 | a plain non-numeric search selects exactly the rows whose lower-cased name contains the lower-cased search |
| ProductQuery.ListProduct | internal/postgresql/product.go:49-68 | the filter is `ListQuery`'s; seven row columns; `id asc` for a nil map, otherwise one clause per entry in visiting order with updated_at rewritten to the coalesce; limit is `uint64(Limit)`; an offset exactly when page > 1 |
| ProductQuery.EachSortEntryOrdersOnce | internal/postgresql/product.go:53-60 | for allow-listed fields, every map entry has a clause with its direction, and no two clauses order by the same expression |
| ProductQuery.PagingWithoutWrap | internal/postgresql/product.go:65-68 | with positive limit and page and no 64-bit overflow, LIMIT is the limit and OFFSET is limit × (page − 1) |
| ProductQuery.TotalProduct | internal/postgresql/product.go:106-107 | `count(id)` over exactly `ListQuery`'s filter, with no ordering, limit or offset |
| ProductQuery.Filter | internal/postgresql/product.go:106-113 | keeps exactly the table rows the filter selects |
| ProductQuery.FilterKeepsMultiplicity | internal/postgresql/product.go:106-113 | each selected row is kept as many times as the table holds it, and any other row never, so the count query counts duplicate rows |
| ProductQuery.PagedRowsAreCounted | internal/postgresql/product.go:49-107 | whatever order the database picks, every row of any page is one the count query counts |
| Transactions.RunInTx | internal/postgresql/postgresql.go:17-32 | a failed begin is returned without running the callback; success returns commit's result with no rollback; a failed callback rolls back and never commits, returning the callback's error, or a combined error when the rollback fails too; the driver calls are exactly begin, then the callback, then one commit or one rollback |
| Transactions.RollbackFailureHidesKind | internal/postgresql/postgresql.go:25-27 | the combined error contains both texts, but `errors.As` finds no typed error in it |
| Transactions.RollbackSuccessKeepsKind | internal/postgresql/postgresql.go:24-28 | after a clean rollback, `errors.As` sees exactly the callback's error |
| Transactions.CreateCallback | internal/postgresql/product.go:121-133 | the type upsert runs before the row insert; the first statement error is returned; without error the type is present and the row appended |
| Transactions.CreateProductAsWritten | internal/postgresql/product.go:120-136 | the creation reports no error in every case, while the database either is unchanged or has the product added |
| Transactions.AsWrittenHidesFailure | internal/postgresql/product.go:121-135 | with a failed begin nothing is inserted and the callback never runs, yet no error is returned |
| Transactions.CreateProduct | internal/postgresql/product.go:120-136 | with the transaction's error returned, the creation fails exactly when begin, a statement or commit fails, and is all-or-nothing |
| Transactions.ExistingTypeUnchanged | internal/postgresql/product.go:121-123 | the type upsert does nothing on conflict, so creating a product of a type already present leaves the type table as it was |
| Transactions.CreateProductReportsEffect | internal/postgresql/product.go:120-136 | no error exactly when the product was added, and an error exactly when the database is unchanged |
| Service.GoDivisionTruncates | internal/service/product.go:51-52 | over unbounded integers and any non-zero divisor, `/` truncates toward zero (negating either operand negates the quotient) and `%` takes the dividend's sign with magnitude below the divisor's; the int64 wrap is left out |
| Service.TotalPagesIsCeiling | internal/service/product.go:51-54 | for a non-negative total and positive limit the page count is the ceiling of total / limit |
| Service.TotalPagesCover | internal/service/product.go:51-54 | for positive total and limit the page count is at least one, and (pages − 1) × limit < total ≤ pages × limit |
| Service.ToResponse | internal/service/product.go:56-69 | id, name, price and type name are copied; quantity stays zero; the update time is UpdatedAt when set, else CreatedAt |
| Service.ToResponses | internal/service/product.go:56-69 | the responses keep the rows' order and length |
| Service.ListProduct | internal/service/product.go:31-72 | the cached count is asked first; its error is returned and rows are never fetched; a zero count returns zero totals and no products without fetching rows; a row error is returned; otherwise the total, the page count and the mapped rows; the repository calls are exactly the count, then the row fetch only for a non-zero count |
| Service.CreateProduct | internal/service/product.go:74-90 | the existence count is asked first, without cache and with only the name as search; the insert is attempted exactly when the count succeeds and is not positive; a positive count fails with "product already exist"; otherwise the repository's id or error; the repository calls are exactly the count, then this one insert only when it is allowed |
| Service.DuplicateReportedAsServerError | internal/service/product.go:80-82 | the duplicate error is untyped, so the error writer answers 500 "server error" |
| Service.CreateReachesRepoIffNoContainingName | internal/service/product.go:75-84 | over a table, a plain non-numeric name is inserted exactly when no stored name contains it case-insensitively |
| Service.NumericNameChecksIds | internal/service/product.go:75-84 | over a table, a name that parses as an integer is inserted exactly when no row has that id |
| Service.PageStarts | internal/service/product.go:51-54 | page p starts inside the items exactly when p is at most the page count, and earlier pages end inside them |
| Service.PagesMatchPageCount | internal/service/product.go:32-54 | with rows and count from the same filter, a page is non-empty exactly when its number is at most the reported page count, and every page before the last is full |
| Cache.HashKey | internal/redis/product.go:19 | every per-request key is "product:" followed by the request's params key |
| Cache.HashKeyInjective | internal/redis/product.go:19 | distinct params keys give distinct hash keys |
| Cache.CacheFields | internal/redis/product.go:26-28 | the field names are the ordering key and "count"; "count" holds the decimal count, and the ordering key holds the serialised page unless it is itself "count", in which case the count wins |
| Cache.CacheProducts | internal/redis/product.go:18-31 | a serialisation or command failure writes nothing and is returned; otherwise one HSET of both fields under the request's key |
| Cache.GetCachedProducts | internal/redis/product.go:33-46 | store errors, the miss signal included, are returned unchanged; otherwise the field's deserialisation |
| Cache.GetCachedProductCount | internal/redis/product.go:48-61 | store errors are returned unchanged; a count that parses is returned; one that does not gives the wrapped "failed to convert product total" error |
| Cache.MissIsNil | internal/redis/product.go:36-39 | an absent hash makes both reads return the miss signal |
| Cache.CacheRoundTrip | internal/redis/product.go:26-60 | after a successful write, reading the count gives the count written and reading the page gives the rows written |
| Cache.OtherPageKeepsField | internal/redis/product.go:26-30 | caching another ordering of the same request overwrites "count" and leaves the first ordering's field as it was, present or missing |
| Cache.OtherRequestUntouched | internal/redis/product.go:18-31 | a write never changes another key |
| Cache.OrderingKeyIsNotCount | internal/redis/product.go:27-28 | no ordering key validation assigns can equal "count", so the page field never collides with the count field |
| Cache.Matching | internal/redis/product.go:65-67 | a scan batch yields exactly its reported keys that are hashes under "product:" |
| Cache.DeleteAll | internal/redis/product.go:71-75 | removes exactly the keys listed before the first failing one and returns that key's error (none when no delete fails); every other key keeps its value |
| Cache.Flush | internal/redis/product.go:63-82 | the flush only removes product hashes and never changes a remaining value; an error returned is a scan reply's failure or a delete fault |
| Cache.FlushClearsReported | internal/redis/product.go:66-80 | a flush that ends without error has removed every product hash any batch reported |
| Cache.FlushRemovesAllProductHashes | internal/redis/product.go:63-82 | when every product hash is reported, a clean flush leaves exactly the keys that are not product hashes, unchanged |
| Cache.FlushAllProducts | internal/redis/product.go:63-82 | the loop computes the recursive flush: stops at the first scan or delete error, or after the batch whose cursor is 0 |

The code differs from the intended design in these ways, and the model
follows the code:

- Ordering clauses come in map iteration order, not in the order the caller
  wrote them.
- The existence check is the listing filter (substring or id match), not
  exact name equality.
- A duplicate is an untyped error (HTTP 500), not a typed already-exist
  error (409).
- Service.CreateProduct does not flush the cache after a creation.
- The page count is quotient plus one for a remainder. For positive totals
  this equals the ceiling formula.

## Left out

- Transport, wiring and shutdown are not part of this model: the HTTP
  handlers, `Success`, the `cmd/` programs, and logging through `slog`.
- SQL text, placeholders, query execution and row scanning. Queries are
  syntax trees. Execution is given as a filter over a table, plus an
  ordering the database chooses, which is taken as a parameter.
- ProductQuery.ListProduct: the source hands `Limit * (Page - 1)`, an
  `int`, to `Offset` (a `uint64` parameter). It is modelled with the same
  `uint64` conversion as the limit.
- ProductQuery.Matches: a numeric search is compared with the id as an
  int64. The id column's own width is not modelled.
- SqlLike.Like: a pattern ending in a lone backslash, which PostgreSQL
  rejects with an error, matches nothing.
- GoStrings.ToLower: only ASCII letters are mapped. Go's full Unicode case
  mapping is not modelled. The same ASCII mapping stands in for
  PostgreSQL's `LOWER(p.name)` in ProductQuery.Matches and
  ProductQuery.NameSearchIsContainment, whose real mapping depends on the
  database's locale.
- JSON serialisation is a function parameter with no injectivity assumed.
  This covers the request key, `MarshalBinary`/`UnmarshalBinary` and the
  cached row pages.
- `GetParamsKey` is not part of this model. Its result is taken as given.
- `time.Time` values are opaque tokens.
- Service.GoDivisionTruncates: Go's `int` is 64 bits wide, so `math.MinInt64 / -1` wraps back to
  `math.MinInt64` and negating `math.MinInt64` overflows. The lemma holds over unbounded integers
  and does not model that wrap.
- Service.TotalPages: the quotient's int64 wrap is not modelled. It needs a total of
  `math.MinInt64`, and the count the repository returns is never negative.
- Service.ListProduct: its precondition rules out a zero limit whenever the
  division is reached. Go panics there. The normalisers never produce such
  a limit.
- Cache.GetCachedProductCount: the `strconv.NumError` text is approximated.
  The input is quoted without Go's escaping.
- Redis networking and SCAN cursor mechanics are not modelled. The scan
  replies and per-command failures are parameters. The key space is a map
  whose values are hashes or some other type.
- Transactions.Transact: the database keeps the callback's work only when
  the commit succeeds. Driver-level partial failure is not modelled.
- `errors.As` matches by kind. The model does not distinguish an error of
  type `T` from one of type `*T`.
- The concurrent check-then-insert race in creation. The model is
  sequential.
- The cache-aside orchestrator exercised by the service tests. It is not
  part of this model.

## Findings

| source | as written | input that shows it | evidently intended | confidence | as-written member | corrected member |
|---|---|---|---|---|---|---|
| internal/postgresql/product.go:121-135 | the result of `runInTx` is discarded and `CreateProduct` returns nil | a begin failure ("connection refused"): nothing is inserted, yet nil is returned | return `runInTx`'s error, so failure is reported exactly when nothing was written | high (not executed) | Transactions.CreateProductAsWritten | Transactions.CreateProduct |

Transactions.AsWrittenHidesFailure proves the counterexample against the
as-written definition. Transactions.CreateProductReportsEffect proves that
the corrected definition reports failure exactly when nothing was written.

=== FILE: cache.dfy ===
/** The cache layout adapter of internal/redis/product.go over an in-memory
    key space. Per request, one hash under `"product:" + paramsKey` holds
    one field per ordering key (the serialised page) and a shared "count"
    field. Serialisation is a pair of function parameters; `GetParamsKey` is
    not part of this model and its result is taken as given. */
module Cache {
  import opened Wrappers
  import opened GoStrings
  import opened Decimal
  import opened Errs
  import Pagination

  const ProductPrefix: string := "product:"
  const CountField: string := "count"

  /** The miss signal the client returns for an absent key or field. */
  const NilReply: Error := Plain("redis: nil")
  /** The server's answer to a hash command on a key of another type. */
  const WrongTypeReply: Error := Plain("WRONGTYPE Operation against a key holding the wrong kind of value")

  /** A value in the key space: a hash of string fields, or any other type. */
  datatype Entry = Hash(fields: map<string, string>) | Other

  type Store = map<string, Entry>

  /** What the adapter reads from a request: the (uninterpreted) params key
      and the pagination part whose ordering key names the hash field. */
  datatype CacheQuery = CacheQuery(paramsKey: string, paging: Pagination.PaginationParams)

  /** The request's hash key: the prefix, then the params key verbatim. */
  function HashKey(q: CacheQuery): (key: string)
    ensures HasPrefix(key, ProductPrefix)
    ensures key[|ProductPrefix|..] == q.paramsKey
  {
    ProductPrefix + q.paramsKey
  }

  /** Distinct request fingerprints get distinct hashes. */
  lemma HashKeyInjective(q1: CacheQuery, q2: CacheQuery)
    requires q1.paramsKey != q2.paramsKey
    ensures HashKey(q1) != HashKey(q2)
  {
    assert HashKey(q1)[|ProductPrefix|..] != HashKey(q2)[|ProductPrefix|..];
  }

  /** `HSET key field value ...`: creates the hash if missing, overwrites the
      given fields and keeps the others. */
  function HSet(store: Store, key: string, fields: map<string, string>): (r: Result<Store, Error>)
    ensures key in store && store[key].Other? <==> r.Err?
    ensures r.Err? ==> r.error == WrongTypeReply
    ensures r.Ok? ==> r.value.Keys == store.Keys + {key}
    ensures r.Ok? ==> forall k | k in store && k != key :: r.value[k] == store[k]
    ensures r.Ok? ==> r.value[key].Hash?
    ensures r.Ok? ==> forall f | f in fields :: f in r.value[key].fields && r.value[key].fields[f] == fields[f]
    ensures r.Ok? && key in store ==>
              forall f | f in store[key].fields && f !in fields :: f in r.value[key].fields
                                                                   && r.value[key].fields[f] == store[key].fields[f]
  {
    if key !in store then Ok(store[key := Hash(fields)])
    else match store[key]
      case Other => Err(WrongTypeReply)
      case Hash(current) => Ok(store[key := Hash(current + fields)])
  }

  /** `HGET key field`. */
  function HGet(store: Store, key: string, field: string): (r: Result<string, Error>)
    ensures r.Ok? <==> key in store && store[key].Hash? && field in store[key].fields
    ensures r.Ok? ==> r.value == store[key].fields[field]
    ensures key in store && store[key].Other? ==> r == Err(WrongTypeReply)
    ensures (key !in store || (store[key].Hash? && field !in store[key].fields)) ==> r == Err(NilReply)
  {
    if key !in store then Err(NilReply)
    else match store[key]
      case Other => Err(WrongTypeReply)
      case Hash(fields) => if field in fields then Ok(fields[field]) else Err(NilReply)
  }

  /** The two fields one caching call writes. Assigning the ordering key
      first and "count" second, as the source fills its map, makes "count"
      win should the two names coincide. */
  function CacheFields(orderingKey: string, data: string, count: int): (fields: map<string, string>)
    ensures fields.Keys == {orderingKey, CountField}
    ensures fields[CountField] == Itoa(count)
    ensures orderingKey != CountField ==> fields[orderingKey] == data
  {
    map[orderingKey := data][CountField := Itoa(count)]
  }

  /** A write's outcome: the key space afterwards and the error returned. */
  datatype Written = Written(store: Store, err: Option<Error>)

  /** `CacheProducts`: serialise the rows, then write both fields with one
      `HSET`. A serialisation failure is returned before anything is written;
      `fault` is the client's failure of that command, if any. */
  function CacheProducts<T>(store: Store, fault: Option<Error>, marshal: seq<T> -> Result<string, Error>,
                            q: CacheQuery, count: int, rows: seq<T>): (r: Written)
    ensures marshal(rows).Err? ==> r == Written(store, Some(marshal(rows).error))
    ensures marshal(rows).Ok? && fault.Some? ==> r == Written(store, fault)
    ensures r.err.Some? ==> r.store == store
    ensures r.err.None? <==> marshal(rows).Ok? && fault.None? && !(HashKey(q) in store && store[HashKey(q)].Other?)
    ensures r.err.None? ==> r.store == HSet(store, HashKey(q), CacheFields(q.paging.orderingKey, marshal(rows).value, count)).value
  {
    var data := marshal(rows);
    if data.Err? then Written(store, Some(data.error))
    else if fault.Some? then Written(store, fault)
    else
      var written := HSet(store, HashKey(q), CacheFields(q.paging.orderingKey, data.value, count));
      if written.Err? then Written(store, Some(written.error)) else Written(written.value, None)
  }

  /** `GetCachedProducts`: read this ordering key's field and deserialise it.
      Store errors, the miss signal included, come back unchanged. */
  function GetCachedProducts<T>(store: Store, fault: Option<Error>, unmarshal: string -> Result<seq<T>, Error>,
                                q: CacheQuery): (r: Result<seq<T>, Error>)
    ensures fault.Some? ==> r == Err(fault.value)
    ensures fault.None? && HGet(store, HashKey(q), q.paging.orderingKey).Err? ==>
              r == Err(HGet(store, HashKey(q), q.paging.orderingKey).error)
    ensures fault.None? && HGet(store, HashKey(q), q.paging.orderingKey).Ok? ==>
              r == unmarshal(HGet(store, HashKey(q), q.paging.orderingKey).value)
  {
    if fault.Some? then Err(fault.value)
    else
      var raw := HGet(store, HashKey(q), q.paging.orderingKey);
      if raw.Err? then Err(raw.error) else unmarshal(raw.value)
  }

  /** The `*strconv.NumError` text `Atoi` reports for an unparsable count. */
  function NumErrorText(s: string): string
  {
    "strconv.Atoi: parsing \"" + s + "\": " + (if IsDecimalSyntax(s) then "value out of range" else "invalid syntax")
  }

  const ConvertContext: string := "failed to convert product total"

  /** `GetCachedProductCount`: read the "count" field and parse it as an
      `int`; a field that does not parse yields a wrapped conversion error. */
  function GetCachedProductCount(store: Store, fault: Option<Error>, q: CacheQuery): (r: Result<int, Error>)
    ensures fault.Some? ==> r == Err(fault.value)
    ensures fault.None? && HGet(store, HashKey(q), CountField).Err? ==>
              r == Err(HGet(store, HashKey(q), CountField).error)
    ensures fault.None? && HGet(store, HashKey(q), CountField).Ok? ==>
              var raw := HGet(store, HashKey(q), CountField).value;
              && (r.Ok? <==> Atoi(raw).Some?)
              && (r.Ok? ==> r.value == Atoi(raw).value)
              && (r.Err? ==> r.error == Wrapped(ConvertContext, Plain(NumErrorText(raw))))
  {
    if fault.Some? then Err(fault.value)
    else
      var raw := HGet(store, HashKey(q), CountField);
      if raw.Err? then Err(raw.error)
      else
        var n := Atoi(raw.value);
        if n.None? then Err(Wrapped(ConvertContext, Plain(NumErrorText(raw.value)))) else Ok(n.value)
  }

  /** A request whose hash is absent misses on both reads with the miss
      signal itself. */
  lemma MissIsNil<T>(store: Store, unmarshal: string -> Result<seq<T>, Error>, q: CacheQuery)
    requires HashKey(q) !in store
    ensures GetCachedProducts(store, None, unmarshal, q) == Err(NilReply)
    ensures GetCachedProductCount(store, None, q) == Err(NilReply)
  {
  }

  /** Round trip: after a successful write, both reads for the same request
      return what was written, given that deserialisation undoes
      serialisation for these rows and the ordering key is not "count". */
  lemma CacheRoundTrip<T>(store: Store, marshal: seq<T> -> Result<string, Error>,
                          unmarshal: string -> Result<seq<T>, Error>, q: CacheQuery, count: int, rows: seq<T>)
    requires IsInt64(count)
    requires q.paging.orderingKey != CountField
    requires marshal(rows).Ok? && unmarshal(marshal(rows).value) == Ok(rows)
    requires CacheProducts(store, None, marshal, q, count, rows).err.None?
    ensures var after := CacheProducts(store, None, marshal, q, count, rows).store;
            && GetCachedProductCount(after, None, q) == Ok(count)
            && GetCachedProducts(after, None, unmarshal, q) == Ok(rows)
  {
    AtoiItoa(count);
  }

  /** Caching another page of the same request replaces the shared count and
      leaves the first page's field as it was. */
  lemma OtherPageKeepsField<T>(store: Store, marshal: seq<T> -> Result<string, Error>,
                               q1: CacheQuery, q2: CacheQuery, count: int, rows: seq<T>)
    requires q1.paramsKey == q2.paramsKey
    requires q1.paging.orderingKey != q2.paging.orderingKey && q1.paging.orderingKey != CountField
    requires CacheProducts(store, None, marshal, q2, count, rows).err.None?
    ensures var after := CacheProducts(store, None, marshal, q2, count, rows).store;
            && HGet(after, HashKey(q1), q1.paging.orderingKey) == HGet(store, HashKey(q1), q1.paging.orderingKey)
            && HGet(after, HashKey(q1), CountField) == Ok(Itoa(count))
  {
  }

  /** Writes for one request never touch another request's hash. */
  lemma OtherRequestUntouched<T>(store: Store, marshal: seq<T> -> Result<string, Error>,
                                 q: CacheQuery, key: string, count: int, rows: seq<T>)
    requires key != HashKey(q) && key in store
    ensures var after := CacheProducts(store, None, marshal, q, count, rows).store;
            key in after && after[key] == store[key]
  {
  }

  /** Every ordering key validation assigns contains ':' and so never names
      the "count" field. */
  lemma OrderingKeyIsNotCount(limit: int, page: int, tokens: seq<string>)
    ensures Pagination.OrderingKey(limit, page, tokens) != CountField
  {
    assert ':' in Pagination.OrderingKey(limit, page, tokens);
    assert ':' !in CountField;
  }

  /** One `SCAN` reply: a failure, or a batch of raw keys and the next cursor. */
  datatype ScanReply = ScanFailed(err: Error) | ScanBatch(keys: seq<string>, cursor: nat)

  /** A reply that ends the loop. */
  predicate Final(r: ScanReply) {
    r.ScanFailed? || r.cursor == 0
  }

  /** The replies one flush receives: every reply but the last continues. */
  predicate ScanRun(replies: seq<ScanReply>) {
    && |replies| > 0
    && Final(replies[|replies| - 1])
    && forall i | 0 <= i < |replies| - 1 :: !Final(replies[i])
  }

  /** The keys `MATCH product:* TYPE hash` lets through. */
  predicate IsProductHash(store: Store, k: string) {
    HasPrefix(k, ProductPrefix) && k in store && store[k].Hash?
  }

  /** The server-side filter applied to a raw batch, in order. */
  function Matching(store: Store, keys: seq<string>): (ks: seq<string>)
    ensures forall k | k in ks :: IsProductHash(store, k) && k in keys
    ensures forall k | k in keys && IsProductHash(store, k) :: k in ks
  {
    if |keys| == 0 then []
    else (if IsProductHash(store, keys[0]) then [keys[0]] else []) + Matching(store, keys[1..])
  }

  /** The position of the first key whose deletion fails, or `|ks|` when
      none does. */
  function FirstFault(ks: seq<string>, faults: map<string, Error>): (j: nat)
    ensures j <= |ks|
    ensures forall i | 0 <= i < j :: ks[i] !in faults
    ensures j < |ks| ==> ks[j] in faults
  {
    if |ks| == 0 || ks[0] in faults then 0 else 1 + FirstFault(ks[1..], faults)
  }

  /** `DEL` of each key in turn, stopping at the first failure (`faults`
      gives the keys whose deletion fails and with what): the keys before
      the first failing one are gone, its error is returned, and nothing
      else changes. */
  function DeleteAll(store: Store, ks: seq<string>, faults: map<string, Error>): (r: (Store, Option<Error>))
    ensures r.0.Keys <= store.Keys
    ensures forall k | k in r.0 :: r.0[k] == store[k]
    ensures forall k | k in store && k !in ks :: k in r.0
    ensures r.1.None? ==> forall k | k in ks :: k !in r.0
    ensures var j := FirstFault(ks, faults);
            && r.0 == store - (set k | k in ks[..j])
            && r.1 == (if j < |ks| then Some(faults[ks[j]]) else None)
  {
    if |ks| == 0 then (store, None)
    else if ks[0] in faults then (store, Some(faults[ks[0]]))
    else
      var r := DeleteAll(store - {ks[0]}, ks[1..], faults);
      var j := FirstFault(ks, faults);
      var later := ks[1..][..j - 1];
      assert ks[..j] == [ks[0]] + later;
      assert (set k | k in ks[..j]) == {ks[0]} + (set k | k in later);
      r
  }

  /** The flush loop as a recursive definition over the replies. */
  function Flush(store: Store, replies: seq<ScanReply>, faults: map<string, Error>): (r: (Store, Option<Error>))
    requires ScanRun(replies)
    ensures r.0.Keys <= store.Keys
    ensures forall k | k in r.0 :: r.0[k] == store[k]
    ensures forall k | k in store && !IsProductHash(store, k) :: k in r.0
    ensures r.1.Some? ==> || (exists i | 0 <= i < |replies| :: replies[i].ScanFailed? && r.1 == Some(replies[i].err))
                          || (exists k | k in faults :: r.1 == Some(faults[k]))
    decreases |replies|
  {
    match replies[0]
    case ScanFailed(e) => (store, Some(e))
    case ScanBatch(keys, cursor) =>
      var (rest, err) := DeleteAll(store, Matching(store, keys), faults);
      if err.Some? || cursor == 0 then (rest, err)
      else Flush(rest, replies[1..], faults)
  }

  /** `k` appears in some batch of the run. */
  predicate Reported(replies: seq<ScanReply>, k: string) {
    exists i | 0 <= i < |replies| :: replies[i].ScanBatch? && k in replies[i].keys
  }

  /** The first reply of a run that continues: its batch's deletions, then
      the rest of the run. */
  lemma FlushUnfold(store: Store, replies: seq<ScanReply>, faults: map<string, Error>)
    requires ScanRun(replies) && |replies| > 1
    ensures replies[0].ScanBatch? && replies[0].cursor != 0
    ensures ScanRun(replies[1..])
    ensures var d := DeleteAll(store, Matching(store, replies[0].keys), faults);
            Flush(store, replies, faults) == (if d.1.Some? then d else Flush(d.0, replies[1..], faults))
  {
    assert !Final(replies[0]);
    assert forall i | 0 <= i < |replies[1..]| - 1 :: replies[1..][i] == replies[i + 1];
  }

  /** A flush that ends without error has deleted every product hash any
      batch reported. */
  lemma {:induction false} FlushClearsReported(store: Store, replies: seq<ScanReply>, faults: map<string, Error>, k: string)
    requires ScanRun(replies)
    requires Flush(store, replies, faults).1.None?
    requires IsProductHash(store, k) && Reported(replies, k)
    ensures k !in Flush(store, replies, faults).0
    decreases |replies|
  {
    var i :| 0 <= i < |replies| && replies[i].ScanBatch? && k in replies[i].keys;
    if |replies| == 1 {
      assert k in Matching(store, replies[0].keys);
    } else {
      FlushUnfold(store, replies, faults);
      var d := DeleteAll(store, Matching(store, replies[0].keys), faults);
      if i == 0 {
        assert k in Matching(store, replies[0].keys);
      } else if k in d.0 {
        assert IsProductHash(d.0, k);
        assert replies[1..][i - 1] == replies[i];
        FlushClearsReported(d.0, replies[1..], faults, k);
      }
    }
  }

  /** When every product hash is reported, as `SCAN` promises for keys
      present throughout, a successful flush leaves no product hash and
      every other key as it was. */
  lemma FlushRemovesAllProductHashes(store: Store, replies: seq<ScanReply>, faults: map<string, Error>)
    requires ScanRun(replies)
    requires Flush(store, replies, faults).1.None?
    requires forall k | IsProductHash(store, k) :: Reported(replies, k)
    ensures var after := Flush(store, replies, faults).0;
            && (forall k | k in store :: k in after <==> !IsProductHash(store, k))
            && (forall k | k in after :: after[k] == store[k])
  {
    forall k | k in store && IsProductHash(store, k)
      ensures k !in Flush(store, replies, faults).0
    {
      FlushClearsReported(store, replies, faults, k);
    }
  }

  /** `FlushAllProducts`: scan with the product pattern and hash type,
      delete each reported key, repeat until the cursor is 0; the first scan
      or delete error ends it. */
  method FlushAllProducts(store: Store, replies: seq<ScanReply>, faults: map<string, Error>)
    returns (after: Store, err: Option<Error>)
    requires ScanRun(replies)
    ensures (after, err) == Flush(store, replies, faults)
    ensures after.Keys <= store.Keys && forall k | k in after :: after[k] == store[k]
  {
    after := store;
    var i := 0;
    while true
      invariant 0 <= i < |replies|
      invariant ScanRun(replies[i..])
      invariant Flush(store, replies, faults) == Flush(after, replies[i..], faults)
      invariant after.Keys <= store.Keys && forall k | k in after :: after[k] == store[k]
      decreases |replies| - i
    {
      match replies[i]
      case ScanFailed(e) =>
        return after, Some(e);
      case ScanBatch(keys, cursor) =>
        var ks := Matching(after, keys);
        var before := after;
        var j := 0;
        while j < |ks|
          invariant 0 <= j <= |ks|
          invariant DeleteAll(before, ks, faults) == DeleteAll(after, ks[j..], faults)
          invariant after.Keys <= before.Keys && forall k | k in after :: after[k] == before[k]
        {
          if ks[j] in faults {
            return after, Some(faults[ks[j]]);
          }
          after := after - {ks[j]};
          j := j + 1;
        }
        if cursor == 0 {
          return after, None;
        }
        assert replies[i..][1..] == replies[i + 1..];
        i := i + 1;
    }
  }
}

=== FILE: decimal.dfy ===
/** Decimal text for Go's 64-bit `int`: `strconv.Itoa` (also what `%d` prints)
    and `strconv.Atoi`, plus the two's-complement reinterpretation a
    `uint64(...)` conversion performs. */
module Decimal {
  import opened Wrappers

  const Int64Min: int := -0x8000_0000_0000_0000
  const Int64Max: int := 0x7FFF_FFFF_FFFF_FFFF
  const TwoTo64: int := 0x1_0000_0000_0000_0000

  predicate IsInt64(x: int) {
    Int64Min <= x <= Int64Max
  }

  /** `uint64(x)` for a Go `int` holding `x`; a product computed in `int`
      arithmetic wraps the same way, so this also models the wrapped product. */
  function ToUint64(x: int): (u: nat)
    ensures u < TwoTo64
    ensures (u - x) % TwoTo64 == 0
    ensures 0 <= x < TwoTo64 ==> u == x
  {
    x % TwoTo64
  }

  predicate IsDigit(c: char) {
    '0' <= c <= '9'
  }

  predicate AllDigits(s: string) {
    forall i | 0 <= i < |s| :: IsDigit(s[i])
  }

  function DigitChar(d: nat): (c: char)
    requires d < 10
    ensures IsDigit(c)
  {
    ('0' as int + d) as char
  }

  function DigitValue(c: char): (d: nat)
    requires IsDigit(c)
    ensures d < 10 && DigitChar(d) == c
  {
    c as int - '0' as int
  }

  /** Value of a digit string read left to right, as the parse loop does. */
  function DigitsValue(s: string): nat
    requires AllDigits(s)
  {
    if |s| == 0 then 0 else 10 * DigitsValue(s[..|s| - 1]) + DigitValue(s[|s| - 1])
  }

  /** Shortest decimal digits of a natural number. */
  function NatToDigits(n: nat): (s: string)
    ensures |s| >= 1 && AllDigits(s)
    ensures s[0] == '0' ==> n == 0
  {
    if n < 10 then [DigitChar(n)] else NatToDigits(n / 10) + [DigitChar(n % 10)]
  }

  /** `strconv.Itoa(n)`, equivalently `fmt.Sprintf("%d", n)`. */
  function Itoa(n: int): (s: string)
    ensures |s| >= 1
    ensures ':' !in s && ',' !in s
    ensures n >= 0 ==> AllDigits(s)
    ensures n < 0 ==> s[0] == '-' && AllDigits(s[1..])
    ensures var d := if n < 0 then s[1..] else s; |d| >= 1 && (d[0] == '0' ==> n == 0)
  {
    var digits := NatToDigits(if n < 0 then -n else n);
    assert forall i | 0 <= i < |digits| :: IsDigit(digits[i]);
    if n < 0 then "-" + digits else digits
  }

  /** The sign and digit syntax `strconv.Atoi` accepts: an optional `+` or
      `-` followed by at least one ASCII digit (no spaces, no underscores). */
  predicate IsDecimalSyntax(s: string) {
    var body := if |s| > 0 && (s[0] == '+' || s[0] == '-') then s[1..] else s;
    |body| > 0 && AllDigits(body)
  }

  /** The value the digits denote, with the sign applied, before any range check. */
  function SignedValue(s: string): int
    requires IsDecimalSyntax(s)
  {
    var signed := s[0] == '+' || s[0] == '-';
    var body := if signed then s[1..] else s;
    assert AllDigits(body);
    var v: int := DigitsValue(body);
    if s[0] == '-' then -v else v
  }

  /** `strconv.Atoi`: a value when the text is well-formed and fits in a
      64-bit `int`, nothing otherwise. */
  function Atoi(s: string): (r: Option<int>)
    ensures r.Some? <==> IsDecimalSyntax(s) && IsInt64(SignedValue(s))
    ensures r.Some? ==> r.value == SignedValue(s) && IsInt64(r.value)
  {
    if IsDecimalSyntax(s) && IsInt64(SignedValue(s)) then Some(SignedValue(s)) else None
  }

  lemma {:induction false} DigitsRoundTrip(n: nat)
    ensures DigitsValue(NatToDigits(n)) == n
  {
    if n >= 10 {
      var s := NatToDigits(n);
      assert s[..|s| - 1] == NatToDigits(n / 10);
      DigitsRoundTrip(n / 10);
    }
  }

  /** Parsing the printed form of any integer gives the integer back. */
  lemma ItoaParses(n: int)
    ensures IsDecimalSyntax(Itoa(n)) && SignedValue(Itoa(n)) == n
  {
    var m := if n < 0 then -n else n;
    DigitsRoundTrip(m);
    if n < 0 {
      assert Itoa(n)[1..] == NatToDigits(m);
    }
  }

  /** `Atoi(Itoa(n)) == n` for every 64-bit integer. */
  lemma AtoiItoa(n: int)
    requires IsInt64(n)
    ensures Atoi(Itoa(n)) == Some(n)
  {
    ItoaParses(n);
  }

  /** Distinct integers print differently. */
  lemma ItoaInjective(a: int, b: int)
    requires Itoa(a) == Itoa(b)
    ensures a == b
  {
    ItoaParses(a);
    ItoaParses(b);
  }
}

=== FILE: domain.dfy ===
/** Rows as the relational repository scans them. This is the field set
    internal/postgresql/product.go and internal/service/product.go use
    (with quantity and an optional update time); the cache adapter stays
    generic over its row type and does not use it. */
module Domain {
  import opened Wrappers

  /** A `time.Time`, kept as an opaque token. */
  datatype Time = Time(token: int)

  datatype ProductType = ProductType(name: string)

  /** One scanned row: id, name, quantity, price, product_type_name,
      created_at and the nullable updated_at. */
  datatype Product = Product(
    id: int,
    name: string,
    quantity: int,
    price: int,
    productType: ProductType,
    createdAt: Time,
    updatedAt: Option<Time>)
}

=== FILE: errors.dfy ===
/** The service's error values and their texts (`pkg/error`), together with the
    generic errors the core creates with `errors.New` and `fmt.Errorf`. */
module Errs {
  import opened Wrappers
  import opened GoStrings

  const StatusBadRequest: int := 400
  const StatusMethodNotAllowed: int := 405
  const StatusConflict: int := 409
  const StatusInternalServerError: int := 500

  /** Every error value the core produces or passes through. */
  datatype Error =
    /** `errs.ValidationError{Message, Err}`; `Err` is nil when `None`. */
    | ValidationError(message: string, err: Option<Error>)
    /** `errs.AlreadyExistError{Message}`. */
    | AlreadyExistError(message: string)
    /** `errs.MethodNotAllowedError{Method}`. */
    | MethodNotAllowedError(verb: string)
    /** An untyped error: `errors.New(text)`, or `fmt.Errorf` with `%v`/`%s` only. */
    | Plain(text: string)
    /** `fmt.Errorf(context + ": %w", inner)`: the only wrapper `errors.As` looks through. */
    | Wrapped(context: string, inner: Error)

  /** `Error()` of each kind. A `%w` wrapper puts its context and ": " in
      front of the inner text and keeps that text whole, as its suffix. */
  function Message(e: Error): (r: string)
    ensures e.Wrapped? ==> HasPrefix(r, e.context + ": ") && HasSuffix(r, Message(e.inner))
    ensures e.Wrapped? ==> |r| == |e.context| + 2 + |Message(e.inner)|
    ensures e.Plain? ==> r == e.text
    decreases e
  {
    match e
    case ValidationError(m, inner) =>
      if m == "" then "validation error"
      else if inner.Some? then "validation error: " + Message(inner.value)
      else "validation error: " + m
    case AlreadyExistError(m) => AlreadyExistText(m)
    case MethodNotAllowedError(verb) => MethodNotAllowedText(verb)
    case Plain(text) => text
    case Wrapped(context, inner) => context + ": " + Message(inner)
  }

  /** `ValidationError.Error()`: it always begins with "validation error"; an
      empty `Message` gives just that, even when `Err` is set; otherwise the
      wrapped error's text wins over `Message`. */
  lemma ValidationText(message: string, err: Option<Error>)
    ensures HasPrefix(Message(ValidationError(message, err)), "validation error")
    ensures message == "" ==> Message(ValidationError(message, err)) == "validation error"
    ensures message != "" && err.Some? ==>
              Message(ValidationError(message, err)) == "validation error: " + Message(err.value)
    ensures message != "" && err.None? ==>
              Message(ValidationError(message, err)) == "validation error: " + message
  {
    var r := Message(ValidationError(message, err));
    if message != "" {
      assert r[..|"validation error"|] == "validation error";
    }
  }

  /** `AlreadyExistError.Error()`: always ends with "already exist"; a
      non-empty `Message` is put in front of it, separated by a space. */
  function AlreadyExistText(message: string): (r: string)
    ensures HasSuffix(r, "already exist")
    ensures message == "" <==> r == "already exist"
    ensures message != "" ==> |r| == |message| + |" already exist"| && r[..|message|] == message
    ensures message != "" ==> r[|message|] == ' ' && r[|message| + 1..] == "already exist"
  {
    if message == "" then "already exist" else message + " already exist"
  }

  /** `MethodNotAllowedError.Error()`: the method between a fixed prefix and suffix. */
  function MethodNotAllowedText(verb: string): (r: string)
    ensures HasPrefix(r, "method ") && HasSuffix(r, " not allowed")
    ensures |r| == |"method "| + |verb| + |" not allowed"|
    ensures r[|"method "|..|r| - |" not allowed"|] == verb
  {
    "method " + verb + " not allowed"
  }

  /** Distinct methods give distinct messages: the method can be read back. */
  lemma MethodNotAllowedInjective(m1: string, m2: string)
    requires MethodNotAllowedText(m1) == MethodNotAllowedText(m2)
    ensures m1 == m2
  {
    var r := MethodNotAllowedText(m1);
    assert m1 == r[|"method "|..|r| - |" not allowed"|] == m2;
  }

  /** The three error types that carry their own HTTP status. */
  predicate IsTyped(e: Error) {
    e.ValidationError? || e.AlreadyExistError? || e.MethodNotAllowedError?
  }

  /** `HttpStatusCode()` of the typed errors: fixed per type, whatever the fields hold. */
  function HttpStatusCode(e: Error): (status: int)
    requires IsTyped(e)
    ensures e.ValidationError? ==> status == StatusBadRequest
    ensures e.AlreadyExistError? ==> status == StatusConflict
    ensures e.MethodNotAllowedError? ==> status == StatusMethodNotAllowed
  {
    match e
    case ValidationError(_, _) => 400
    case AlreadyExistError(_) => 409
    case MethodNotAllowedError(_) => 405
  }

  /** The error types a handler asks `errors.As` about. */
  datatype Kind = AlreadyExistKind | ValidationKind | MethodNotAllowedKind

  predicate OfKind(e: Error, k: Kind) {
    match k
    case AlreadyExistKind => e.AlreadyExistError?
    case ValidationKind => e.ValidationError?
    case MethodNotAllowedKind => e.MethodNotAllowedError?
  }

  /** `errors.As(err, &K{})`: some error on the unwrap chain of `e` has kind `k`. */
  predicate As(e: Error, k: Kind)
    decreases e
  {
    OfKind(e, k) || (e.Wrapped? && As(e.inner, k))
  }

  /** The unwrap chain of `e`: `e` itself, then what each `%w` wrapper holds,
      ending at the first error that wraps nothing. */
  function Chain(e: Error): (c: seq<Error>)
    ensures |c| >= 1 && c[0] == e
    ensures forall i | 0 <= i < |c| - 1 :: c[i].Wrapped? && c[i + 1] == c[i].inner
    ensures !c[|c| - 1].Wrapped?
    decreases e
  {
    if e.Wrapped? then [e] + Chain(e.inner) else [e]
  }

  /** `errors.As` finds a kind exactly when some error on the unwrap chain
      has it; an untyped text error ends the chain and has no kind. */
  lemma {:induction false} AsSearchesChain(e: Error, k: Kind)
    ensures As(e, k) <==> exists i | 0 <= i < |Chain(e)| :: OfKind(Chain(e)[i], k)
    ensures e.Plain? ==> !As(e, k)
    decreases e
  {
    var c := Chain(e);
    if e.Wrapped? {
      AsSearchesChain(e.inner, k);
      var ci := Chain(e.inner);
      assert c == [e] + ci;
      if As(e.inner, k) {
        var i :| 0 <= i < |ci| && OfKind(ci[i], k);
        assert c[i + 1] == ci[i];
      }
      if exists i | 0 <= i < |c| :: OfKind(c[i], k) {
        var i :| 0 <= i < |c| && OfKind(c[i], k);
        if i > 0 {
          assert ci[i - 1] == c[i];
          assert 0 <= i - 1 < |ci| && OfKind(ci[i - 1], k);
          assert As(e.inner, k);
        }
        assert As(e, k);
      }
    } else {
      assert c == [e];
    }
  }
}

=== FILE: handler.dfy ===
/** Status and message selection of the HTTP error writer (`handler.Error`);
    writing the header and encoding the body are transport and left out. */
module Handler {
  import opened Wrappers
  import opened GoStrings
  import opened Errs

  /** Status line and the `{"error": message}` body of an error response. */
  datatype ApiError = ApiError(status: int, message: string)

  /** `Error(w, status, err)`: the first matching typed error decides the
      status; anything else is a 500 whose text is hidden. */
  function Classify(status: int, err: Error): (r: ApiError)
    ensures As(err, AlreadyExistKind) ==> r == ApiError(StatusConflict, Message(err))
    ensures !As(err, AlreadyExistKind) && As(err, ValidationKind) ==>
              r == ApiError(StatusBadRequest, Message(err))
    ensures !As(err, AlreadyExistKind) && !As(err, ValidationKind) && As(err, MethodNotAllowedKind) ==>
              r == ApiError(StatusMethodNotAllowed, Message(err))
    ensures !As(err, AlreadyExistKind) && !As(err, ValidationKind) && !As(err, MethodNotAllowedKind) ==>
              r == ApiError(StatusInternalServerError, "server error")
  {
    if As(err, AlreadyExistKind) then ApiError(HttpStatusCode(AlreadyExistError("")), Message(err))
    else if As(err, ValidationKind) then ApiError(HttpStatusCode(ValidationError("", None)), Message(err))
    else if As(err, MethodNotAllowedKind) then ApiError(HttpStatusCode(MethodNotAllowedError("")), Message(err))
    else ApiError(StatusInternalServerError, "server error")
  }

  /** The status the caller passes in never reaches the response. */
  lemma StatusArgumentIgnored(s1: int, s2: int, err: Error)
    ensures Classify(s1, err) == Classify(s2, err)
  {
  }

  /** Only one of the four statuses is ever written. */
  lemma StatusIsOneOfFour(status: int, err: Error)
    ensures Classify(status, err).status in {StatusConflict, StatusBadRequest, StatusMethodNotAllowed, StatusInternalServerError}
  {
  }

  /** Every typed error's text, and any context wrapped around it, is longer
      than the generic "server error": validation texts start with
      "validation error", conflicts end with "already exist" and method errors
      read "method ... not allowed". */
  lemma {:induction false} TypedTextIsLong(err: Error)
    ensures As(err, AlreadyExistKind) || As(err, ValidationKind) || As(err, MethodNotAllowedKind) ==>
              |Message(err)| > |"server error"|
    decreases err
  {
    match err {
      case ValidationError(msg, inner) =>
        ValidationText(msg, inner);
      case Wrapped(context, inner) =>
        TypedTextIsLong(inner);
      case _ =>
    }
  }

  /** The generic "server error" text appears exactly on the 500 path: no
      typed error's own text can be mistaken for it. */
  lemma ServerErrorTextOnlyFor500(status: int, err: Error)
    ensures Classify(status, err).message == "server error" <==>
              Classify(status, err).status == StatusInternalServerError
  {
    TypedTextIsLong(err);
  }
}

=== FILE: like.dfy ===
/** PostgreSQL's `LIKE`: `%` matches any run of characters, `_` any single
    character, and a backslash makes the next pattern character literal. */
module SqlLike {
  import opened GoStrings

  /** `s LIKE p`. A pattern ending in a lone backslash, which PostgreSQL
      rejects with an error, matches nothing here. */
  function Like(s: string, p: string): bool
    decreases |s| + |p|
  {
    if |p| == 0 then |s| == 0
    else if p[0] == '%' then Like(s, p[1..]) || (|s| > 0 && Like(s[1..], p))
    else if p[0] == '\\' then |p| > 1 && |s| > 0 && s[0] == p[1] && Like(s[1..], p[2..])
    else |s| > 0 && (p[0] == '_' || p[0] == s[0]) && Like(s[1..], p[1..])
  }

  /** Characters with no special meaning in a pattern. */
  predicate IsLiteral(x: string) {
    '%' !in x && '_' !in x && '\\' !in x
  }

  /** `%` matches everything. */
  lemma {:induction false} LikeAnything(t: string)
    ensures Like(t, "%")
    decreases |t|
  {
    if |t| > 0 {
      LikeAnything(t[1..]);
    }
  }

  /** A pattern without backslashes matches its own text, whatever follows
      on both sides, as long as the rests match. */
  lemma {:induction false} LikeSelfPrefix(x: string, t: string, q: string)
    requires '\\' !in x
    requires Like(t, q)
    ensures Like(x + t, x + q)
    decreases |x|
  {
    if |x| > 0 {
      var s, p := x + t, x + q;
      LikeSelfPrefix(x[1..], t, q);
      assert s[1..] == x[1..] + t;
      assert p[1..] == x[1..] + q;
      assert s[0] == p[0] == x[0] && p[0] != '\\';
      assert Like(s[1..], p[1..]);
      if x[0] == '%' {
        // the text's '%' is consumed by the pattern's '%', which then matches nothing more
        assert Like(s[1..], p);
        assert Like(s, p);
      } else {
        assert Like(s, p);
      }
    } else {
      assert x + t == t && x + q == q;
    }
  }

  /** A leading `%` may skip any prefix. */
  lemma {:induction false} LikeSkipPrefix(a: string, t: string, q: string)
    requires Like(t, q)
    ensures Like(a + t, "%" + q)
    decreases |a|
  {
    assert ("%" + q)[1..] == q;
    if |a| == 0 {
      assert a + t == t;
    } else {
      LikeSkipPrefix(a[1..], t, q);
      assert (a + t)[1..] == a[1..] + t;
    }
  }

  /** Containment implies a `%x%` match when `x` has no backslash, and `%`
      or `_` in `x` only widen the match. */
  lemma LikeOfContained(s: string, x: string)
    requires '\\' !in x
    requires ContainsString(s, x)
    ensures Like(s, "%" + x + "%")
  {
    var i :| 0 <= i <= |s| && HasPrefix(s[i..], x);
    var b := s[i + |x|..];
    LikeAnything(b);
    LikeSelfPrefix(x, b, "%");
    assert s[i..] == x + b;
    LikeSkipPrefix(s[..i], x + b, x + "%");
    assert s == s[..i] + (x + b);
    assert "%" + x + "%" == "%" + (x + "%");
  }

  /** A `%q` match starts matching `q` somewhere. */
  lemma {:induction false} LikeLeadingPercent(s: string, q: string)
    requires Like(s, "%" + q)
    ensures exists i | 0 <= i <= |s| :: Like(s[i..], q)
    decreases |s|
  {
    assert ("%" + q)[1..] == q;
    if Like(s, q) {
      assert s[0..] == s;
    } else {
      LikeLeadingPercent(s[1..], q);
      var i :| 0 <= i <= |s[1..]| && Like(s[1..][i..], q);
      assert s[1..][i..] == s[i + 1..];
    }
  }

  /** A literal text followed by `%` matches exactly the strings it prefixes. */
  lemma {:induction false} LikeLiteralPrefix(t: string, x: string)
    requires IsLiteral(x)
    requires Like(t, x + "%")
    ensures HasPrefix(t, x)
    decreases |x|
  {
    if |x| > 0 {
      assert (x + "%")[0] == x[0];
      assert (x + "%")[1..] == x[1..] + "%";
      assert IsLiteral(x[1..]) by {
        assert forall c | c in x[1..] :: c in x;
      }
      LikeLiteralPrefix(t[1..], x[1..]);
    }
  }

  /** For a literal `x`, `%x%` matches exactly the strings containing `x`. */
  lemma LikeMeansContains(s: string, x: string)
    requires IsLiteral(x)
    ensures Like(s, "%" + x + "%") <==> ContainsString(s, x)
  {
    if Like(s, "%" + x + "%") {
      assert "%" + x + "%" == "%" + (x + "%");
      LikeLeadingPercent(s, x + "%");
      var i :| 0 <= i <= |s| && Like(s[i..], x + "%");
      LikeLiteralPrefix(s[i..], x);
    }
    if ContainsString(s, x) {
      LikeOfContained(s, x);
    }
  }

  /** `_` stands for any single character: `%a_c%` matches `xabcx`, which
      does not contain the text `a_c`. */
  lemma UnderscoreIsWildcard()
    ensures Like("xabcx", "%a_c%")
    ensures !ContainsString("xabcx", "a_c")
  {
    assert Like("abcx", "a_c%") by {
      LikeAnything("x");
    }
    LikeSkipPrefix("x", "abcx", "a_c%");
    assert "x" + "abcx" == "xabcx";
    forall i | 0 <= i <= |"xabcx"|
      ensures !HasPrefix("xabcx"[i..], "a_c")
    {
      if i + 3 <= 5 {
        assert "xabcx"[i..][..3][1] != '_';
      }
    }
  }
}

=== FILE: pagination.dfy ===
/** `PaginationParams.Validate` (internal/params/pagination.go): coerces page
    and limit, splits comma-joined sort entries, checks every `field:direction`
    token and derives the ordering key that tells cached row pages apart. */
module Pagination {
  import opened Wrappers
  import opened GoStrings
  import opened Decimal
  import opened Errs
  import opened SortMaps

  const DefaultPage: int := 1
  const DefaultLimit: int := 5

  /** The request's paging part. `sortMap` is nil (`None`) until a non-empty
      sort list is validated; `orderingKey` is only written on success. */
  datatype PaginationParams = PaginationParams(
    sorts: seq<string>,
    limit: int,
    page: int,
    sortMap: Option<map<string, string>>,
    orderingKey: string)

  /** A `Validate()` call: the receiver after the call and the returned error. */
  datatype Validated = Validated(params: PaginationParams, err: Option<Error>)

  /** One raw entry: a comma-joined entry becomes its pieces. */
  function Expand(sort: string): (pieces: seq<string>)
    ensures |pieces| >= 1
    ensures forall i | 0 <= i < |pieces| :: ',' !in pieces[i]
    ensures Join(pieces, ',') == sort
  {
    if ',' in sort then Split(sort, ',') else [sort]
  }

  /** The entries with every comma-joined entry replaced by its pieces, in order. */
  function ExpandSorts(sorts: seq<string>): (tokens: seq<string>)
    ensures |tokens| >= |sorts|
    ensures forall i | 0 <= i < |tokens| :: ',' !in tokens[i]
    ensures (forall i | 0 <= i < |sorts| :: ',' !in sorts[i]) ==> tokens == sorts
  {
    if |sorts| == 0 then [] else Expand(sorts[0]) + ExpandSorts(sorts[1..])
  }

  /** The expansion is exactly `strings.Split` of every entry, flattened:
      testing for a comma first changes nothing. */
  lemma {:induction false} ExpandSortsIsFlatSplit(sorts: seq<string>)
    ensures ExpandSorts(sorts) == Flatten(seq(|sorts|, i requires 0 <= i < |sorts| => Split(sorts[i], ',')))
  {
    var pieces := seq(|sorts|, i requires 0 <= i < |sorts| => Split(sorts[i], ','));
    if |sorts| > 0 {
      if ',' !in sorts[0] {
        SplitNoSeparator(sorts[0], ',');
      }
      ExpandSortsIsFlatSplit(sorts[1..]);
      assert pieces[1..] == seq(|sorts[1..]|, i requires 0 <= i < |sorts[1..]| => Split(sorts[1..][i], ','));
    }
  }

  /** Expansion works entry by entry. */
  lemma {:induction false} ExpandSortsAppend(a: seq<string>, b: seq<string>)
    ensures ExpandSorts(a + b) == ExpandSorts(a) + ExpandSorts(b)
  {
    if |a| == 0 {
      assert a + b == b;
    } else {
      assert (a + b)[1..] == a[1..] + b;
      ExpandSortsAppend(a[1..], b);
    }
  }

  predicate WellFormed(token: string) {
    |Split(token, ':')| == 2
  }

  /** The field, trimmed and lower-cased; no allow-list applies. */
  function FieldOf(token: string): string
    requires WellFormed(token)
  {
    ToLower(TrimSpace(Split(token, ':')[0]))
  }

  function DirectionOf(token: string): string
    requires WellFormed(token)
  {
    ToLower(TrimSpace(Split(token, ':')[1]))
  }

  /** The per-token check: exactly one ':' and a direction of asc or desc. */
  function CheckToken(token: string): (r: Option<Error>)
    ensures r.None? <==> WellFormed(token) && (DirectionOf(token) == "asc" || DirectionOf(token) == "desc")
    ensures !WellFormed(token) ==> r == Some(Plain(token + " is not valid sort format"))
    ensures WellFormed(token) && r.Some? ==> r == Some(Plain("not valid sort direction"))
  {
    if !WellFormed(token) then Some(Plain(token + " is not valid sort format"))
    else if DirectionOf(token) != "asc" && DirectionOf(token) != "desc" then Some(Plain("not valid sort direction"))
    else None
  }

  /** The map entry a token contributes once it has been checked. */
  function BindingOf(token: string): Binding
  {
    if WellFormed(token) then Binding(FieldOf(token), DirectionOf(token)) else Binding("", "")
  }

  /** `fmt.Sprintf("%d:%d:%s", limit, page, <raw tokens concatenated>)`. */
  function OrderingKey(limit: int, page: int, tokens: seq<string>): (key: string)
    ensures ':' in key
  {
    var key := Itoa(limit) + ":" + (Itoa(page) + ":" + Concat(tokens));
    assert key[|Itoa(limit)|] == ':';
    key
  }

  /** `Validate()` on the receiver `p`. */
  function Validate(p: PaginationParams): (r: Validated)
    ensures r.params.sorts == p.sorts
    ensures r.params.page == (if p.page < 1 then DefaultPage else p.page)
    ensures r.params.limit == (if p.limit < 1 then DefaultLimit else p.limit)
    ensures |p.sorts| == 0 ==> r.err.None? && r.params.sortMap == p.sortMap
    ensures |p.sorts| > 0 ==> r.params.sortMap.Some?
    ensures r.err.None? <==> AllValid(CheckToken, ExpandSorts(p.sorts))
    ensures r.err.Some? ==> r.params.orderingKey == p.orderingKey
    ensures r.err.Some? ==> exists k :: FirstInvalid(CheckToken, ExpandSorts(p.sorts), k)
                                        && r.err == CheckToken(ExpandSorts(p.sorts)[k])
    ensures r.err.None? ==>
              r.params.orderingKey == OrderingKey(r.params.limit, r.params.page, ExpandSorts(p.sorts))
  {
    var page := if p.page < 1 then DefaultPage else p.page;
    var limit := if p.limit < 1 then DefaultLimit else p.limit;
    if |p.sorts| == 0 then
      Validated(p.(page := page, limit := limit, orderingKey := OrderingKey(limit, page, [])), None)
    else
      var tokens := ExpandSorts(p.sorts);
      var parsed := ParseSorts(CheckToken, BindingOf, map[], tokens);
      if parsed.err.Some? then
        Validated(p.(page := page, limit := limit, sortMap := Some(parsed.sortMap)), parsed.err)
      else
        Validated(p.(page := page, limit := limit, sortMap := Some(parsed.sortMap),
                     orderingKey := OrderingKey(limit, page, tokens)), None)
  }

  /** After a successful validation the sort map holds exactly the fields
      named by some token, each with the direction of the LAST token naming it. */
  lemma ValidatedSortMapLastWins(p: PaginationParams, f: string)
    requires |p.sorts| > 0 && AllValid(CheckToken, ExpandSorts(p.sorts))
    ensures var m := Validate(p).params.sortMap.value;
            var bs := Bindings(BindingOf, ExpandSorts(p.sorts));
            (f in m <==> LastBinding(bs, f).Some?) &&
            (f in m ==> m[f] == LastBinding(bs, f).value)
  {
    ParseSortsLastWins(CheckToken, BindingOf, ExpandSorts(p.sorts), f);
  }

  /** A malformed token is named at the head of the error text, and this
      includes the empty piece a trailing comma leaves behind. */
  lemma MalformedTokenIsNamed(token: string)
    requires !WellFormed(token)
    ensures HasPrefix(Message(CheckToken(token).value), token)
  {
  }

  /** The empty token is malformed: it splits into a single piece. */
  lemma EmptyTokenMalformed()
    ensures CheckToken("") == Some(Plain(" is not valid sort format"))
  {
    SplitNoSeparator("", ':');
    assert "" + " is not valid sort format" == " is not valid sort format";
  }

  /** A raw entry ending in a comma, such as `price:asc,`, leaves an empty
      last piece, so validation fails whatever the other entries hold. */
  lemma TrailingCommaFails(p: PaginationParams, i: int)
    requires 0 <= i < |p.sorts| && |p.sorts[i]| > 0 && p.sorts[i][|p.sorts[i]| - 1] == ','
    ensures Validate(p).err.Some?
  {
    var entry := p.sorts[i];
    var body := entry[..|entry| - 1];
    assert entry == body + [','];
    SplitTrailingSeparator(body, ',');
    var pieces := Expand(entry);
    assert pieces[|pieces| - 1] == "";
    assert p.sorts == p.sorts[..i] + ([entry] + p.sorts[i + 1..]);
    ExpandSortsAppend(p.sorts[..i], [entry] + p.sorts[i + 1..]);
    ExpandSortsAppend([entry], p.sorts[i + 1..]);
    assert ExpandSorts([entry]) == pieces + [];
    var tokens := ExpandSorts(p.sorts);
    var at := |ExpandSorts(p.sorts[..i])| + |pieces| - 1;
    assert tokens[at] == "";
    EmptyTokenMalformed();
  }

  /** The ordering key identifies limit and page: two successful validations
      whose keys agree had the same limit, the same page and the same
      concatenated raw tokens. */
  lemma OrderingKeyDeterminesPaging(l1: int, p1: int, t1: seq<string>, l2: int, p2: int, t2: seq<string>)
    requires OrderingKey(l1, p1, t1) == OrderingKey(l2, p2, t2)
    ensures l1 == l2 && p1 == p2 && Concat(t1) == Concat(t2)
  {
    var rest1 := Itoa(p1) + ":" + Concat(t1);
    var rest2 := Itoa(p2) + ":" + Concat(t2);
    SplitAtFirstColon(Itoa(l1), rest1, Itoa(l2), rest2);
    ItoaInjective(l1, l2);
    SplitAtFirstColon(Itoa(p1), Concat(t1), Itoa(p2), Concat(t2));
    ItoaInjective(p1, p2);
  }
}

=== FILE: product_params.dfy ===
/** Request normalisers of internal/params/product.go: the listing query
    (`ListProductQueryParams.Validate`) and the creation body
    (`CreateOrUpdateProductRequest.Validate`). */
module ProductParams {
  import opened Wrappers
  import opened GoStrings
  import opened Errs
  import opened SortMaps

  const DefaultPage: int := 1
  const DefaultLimit: int := 5

  /** The listing query. `sortMap` and `key` are unexported fields that only
      `Validate` writes. */
  datatype ListProductQueryParams = ListProductQueryParams(
    search: string,
    types: seq<string>,
    sorts: seq<string>,
    sortMap: Option<map<string, string>>,
    limit: int,
    page: int,
    key: string)

  /** The exported fields: all that `json.Marshal` serialises into the key. */
  datatype KeyFields = KeyFields(search: string, types: seq<string>, sorts: seq<string>, limit: int, page: int)

  /** JSON serialisation of the exported fields, left abstract. */
  type Marshal = KeyFields -> string

  /** A `Validate()` call: the receiver afterwards and the returned error. */
  datatype Validated = Validated(params: ListProductQueryParams, err: Option<Error>)

  predicate WellFormed(token: string) {
    |Split(token, ':')| == 2
  }

  /** The field exactly as written: neither trimmed nor lower-cased. */
  function FieldOf(token: string): string
    requires WellFormed(token)
  {
    Split(token, ':')[0]
  }

  /** The direction, lower-cased but not trimmed. */
  function DirectionOf(token: string): string
    requires WellFormed(token)
  {
    ToLower(Split(token, ':')[1])
  }

  /** The sortable columns. */
  predicate AllowedField(field: string) {
    field == "updated_at" || field == "price" || field == "name"
  }

  /** The per-token checks, in the order the source applies them: format,
      then field, then direction. */
  function CheckToken(token: string): (r: Option<Error>)
    ensures r.None? <==> WellFormed(token) && AllowedField(FieldOf(token))
                         && (DirectionOf(token) == "asc" || DirectionOf(token) == "desc")
    ensures !WellFormed(token) ==> r == Some(Plain("not valid sort format"))
    ensures WellFormed(token) && !AllowedField(FieldOf(token)) ==> r == Some(Plain("not valid sort value"))
    ensures WellFormed(token) && AllowedField(FieldOf(token)) && r.Some? ==>
              r == Some(Plain("not valid sort direction"))
  {
    if !WellFormed(token) then Some(Plain("not valid sort format"))
    else if !AllowedField(FieldOf(token)) then Some(Plain("not valid sort value"))
    else if DirectionOf(token) != "asc" && DirectionOf(token) != "desc" then Some(Plain("not valid sort direction"))
    else None
  }

  function BindingOf(token: string): Binding
  {
    if WellFormed(token) then Binding(FieldOf(token), DirectionOf(token)) else Binding("", "")
  }

  /** `Validate()` on the receiver `p`; `marshal` stands for `json.Marshal`,
      whose error the source discards. */
  function Validate(p: ListProductQueryParams, marshal: Marshal): (r: Validated)
    ensures r.params.page == (if p.page < 1 then DefaultPage else p.page)
    ensures r.params.limit == (if p.limit < 1 then DefaultLimit else p.limit)
    ensures r.params.search == TrimSpace(p.search)
    ensures r.params.types == p.types && r.params.sorts == p.sorts
    ensures |p.sorts| == 0 ==> r.err.None? && r.params.sortMap == p.sortMap
    ensures |p.sorts| > 0 ==> r.params.sortMap.Some?
    ensures r.err.None? <==> AllValid(CheckToken, p.sorts)
    ensures r.err.Some? ==> exists k :: FirstInvalid(CheckToken, p.sorts, k) && r.err == CheckToken(p.sorts[k])
    ensures r.err.Some? ==> r.params.key == p.key
    ensures r.err.None? ==>
              r.params.key == marshal(KeyFields(r.params.search, r.params.types, r.params.sorts, r.params.limit, r.params.page))
  {
    var page := if p.page < 1 then DefaultPage else p.page;
    var limit := if p.limit < 1 then DefaultLimit else p.limit;
    var coerced := p.(page := page, limit := limit, search := TrimSpace(p.search));
    var withSorts :=
      if |p.sorts| == 0 then Validated(coerced, None)
      else
        var parsed := ParseSorts(CheckToken, BindingOf, map[], p.sorts);
        Validated(coerced.(sortMap := Some(parsed.sortMap)), parsed.err);
    if withSorts.err.Some? then withSorts
    else
      var q := withSorts.params;
      Validated(q.(key := marshal(KeyFields(q.search, q.types, q.sorts, q.limit, q.page))), None)
  }

  /** After a successful validation the sort map holds exactly the fields
      named by some token, each with the direction of the LAST token naming it. */
  lemma ValidatedSortMapLastWins(p: ListProductQueryParams, marshal: Marshal, f: string)
    requires |p.sorts| > 0 && Validate(p, marshal).err.None?
    ensures var m := Validate(p, marshal).params.sortMap.value;
            var bs := Bindings(BindingOf, p.sorts);
            (f in m <==> LastBinding(bs, f).Some?) &&
            (f in m ==> m[f] == LastBinding(bs, f).value)
  {
    ParseSortsLastWins(CheckToken, BindingOf, p.sorts, f);
  }

  /** The cache key depends only on the normalised exported fields, not on
      whatever the unexported fields held before the call. */
  lemma KeyIgnoresUnexportedFields(p: ListProductQueryParams, marshal: Marshal,
                                   oldMap: Option<map<string, string>>, oldKey: string)
    requires Validate(p, marshal).err.None?
    ensures Validate(p.(sortMap := oldMap, key := oldKey), marshal).params.key == Validate(p, marshal).params.key
  {
  }

  /** `sorts=test` has no ':' and is rejected as a format error. */
  lemma NoColonIsFormatError()
    ensures CheckToken("test") == Some(Plain("not valid sort format"))
  {
    SplitNoSeparator("test", ':');
  }

  /** The field is compared case-sensitively: `Price:asc` is rejected. */
  lemma FieldIsCaseSensitive()
    ensures CheckToken("Price:asc") == Some(Plain("not valid sort value"))
  {
    var parts := ["Price", "asc"];
    assert Join(parts, ':') == "Price:asc";
    SplitUnique("Price:asc", ':', parts);
  }

  /** The direction is lower-cased first: `price:DESC` is accepted. */
  lemma DirectionIsCaseInsensitive()
    ensures CheckToken("price:DESC") == None
  {
    var parts := ["price", "DESC"];
    assert Join(parts, ':') == "price:DESC";
    SplitUnique("price:DESC", ':', parts);
    assert WellFormed("price:DESC") && FieldOf("price:DESC") == "price";
    var lower := ToLower("DESC");
    assert lower[0] == 'd' && lower[1] == 'e' && lower[2] == 's' && lower[3] == 'c';
    assert DirectionOf("price:DESC") == lower == "desc";
  }

  /** The creation body. */
  datatype CreateOrUpdateProductRequest = CreateOrUpdateProductRequest(
    name: string, quantity: int, price: int, productType: string)

  datatype CreateValidated = CreateValidated(req: CreateOrUpdateProductRequest, err: Option<Error>)

  /** `CreateOrUpdateProductRequest.Validate()`: name, type, quantity, price
      are checked in that order and the first failure is returned; the type is
      lower-cased once name and type are known to be non-empty. */
  function ValidateCreate(req: CreateOrUpdateProductRequest): (r: CreateValidated)
    ensures r.err.None? <==> req.name != "" && req.productType != "" && req.quantity >= 0 && req.price >= 0
    ensures req.name == "" ==> r.err == Some(Plain("name cannot be empty"))
    ensures req.name != "" && req.productType == "" ==> r.err == Some(Plain("type cannot be empty"))
    ensures req.name != "" && req.productType != "" && req.quantity < 0 ==>
              r.err == Some(Plain("quantity cannot be negative"))
    ensures req.name != "" && req.productType != "" && req.quantity >= 0 && req.price < 0 ==>
              r.err == Some(Plain("price cannot be negative"))
    ensures r.req.name == req.name && r.req.quantity == req.quantity && r.req.price == req.price
    ensures r.req.productType == (if req.name != "" && req.productType != "" then ToLower(req.productType) else req.productType)
  {
    if req.name == "" then CreateValidated(req, Some(Plain("name cannot be empty")))
    else if req.productType == "" then CreateValidated(req, Some(Plain("type cannot be empty")))
    else
      var lowered := req.(productType := ToLower(req.productType));
      if req.quantity < 0 then CreateValidated(lowered, Some(Plain("quantity cannot be negative")))
      else if req.price < 0 then CreateValidated(lowered, Some(Plain("price cannot be negative")))
      else CreateValidated(lowered, None)
  }

  /** Names are not trimmed: a name of only spaces passes. */
  lemma BlankNamePasses(quantity: int, price: int)
    requires quantity >= 0 && price >= 0
    ensures ValidateCreate(CreateOrUpdateProductRequest(" ", quantity, price, "buah")).err.None?
  {
  }

  /** A successful validation leaves a lower-case type, and validating again
      changes nothing. */
  lemma ValidateCreateIdempotent(req: CreateOrUpdateProductRequest)
    requires ValidateCreate(req).err.None?
    ensures IsLower(ValidateCreate(req).req.productType)
    ensures ValidateCreate(ValidateCreate(req).req) == ValidateCreate(req)
  {
    ToLowerFixesLower(req.productType);
  }
}

=== FILE: query.dfy ===
/** The listing queries of internal/postgresql/product.go as a syntax tree:
    `ListQuery` builds the shared filter, `ListProduct` adds projection,
    ordering and paging, `TotalProduct` projects a count over the same filter.
    Rendering SQL text and running it are left out; `Selects` gives the
    filter's meaning on a row instead. */
module ProductQuery {
  import opened Wrappers
  import opened GoStrings
  import opened Decimal
  import opened SqlLike
  import opened ProductParams
  import opened Domain

  /** A `WHERE` conjunct. */
  datatype Predicate =
    /** `p.id = $n` with the search text as the parameter. */
    | IdEquals(value: string)
    /** `LOWER(p.name) LIKE $n`. */
    | NameLike(pattern: string)
    /** `p.product_type_name IN (...)`. */
    | TypeIn(types: seq<string>)

  /** One `ORDER BY` item: an expression and a direction. */
  datatype OrderTerm = OrderTerm(expr: string, direction: string)

  datatype SelectQuery = SelectQuery(
    columns: seq<string>,
    from: string,
    where: seq<Predicate>,
    orderBy: seq<OrderTerm>,
    limit: Option<nat>,
    offset: Option<nat>)

  const ProductsTable: string := "products p"
  const RowColumns: seq<string> := ["id", "name", "quantity", "price", "product_type_name", "created_at", "updated_at"]
  const CountColumns: seq<string> := ["count(id)"]
  const UpdatedAtExpr: string := "coalesce(p.updated_at, p.created_at)"

  /** The pattern a non-numeric search text becomes. */
  function NamePattern(search: string): string
  {
    "%" + ToLower(search) + "%"
  }

  /** The search predicate: none for empty text, an id comparison when the
      text parses as an integer, a name match otherwise. */
  function SearchPredicates(search: string): (ps: seq<Predicate>)
    ensures search == "" <==> ps == []
    ensures search != "" ==> |ps| == 1
    ensures search != "" && Atoi(search).Some? ==> ps == [IdEquals(search)]
    ensures search != "" && Atoi(search).None? ==> ps == [NameLike(NamePattern(search))]
  {
    if |search| == 0 then []
    else if Atoi(search).Some? then [IdEquals(search)]
    else [NameLike(NamePattern(search))]
  }

  function TypePredicates(types: seq<string>): (ps: seq<Predicate>)
    ensures types == [] <==> ps == []
    ensures types != [] ==> ps == [TypeIn(types)]
  {
    if |types| == 0 then [] else [TypeIn(types)]
  }

  /** `ListQuery`: a bare select from the products table with the search
      predicate (if any) followed by the type predicate (if any). */
  function ListQuery(req: ListProductQueryParams): (q: SelectQuery)
    ensures q.columns == [] && q.from == ProductsTable
    ensures q.orderBy == [] && q.limit.None? && q.offset.None?
    ensures q.where == SearchPredicates(req.search) + TypePredicates(req.types)
    ensures |q.where| == (if req.search == "" then 0 else 1) + (if req.types == [] then 0 else 1)
  {
    SelectQuery([], ProductsTable, SearchPredicates(req.search) + TypePredicates(req.types), [], None, None)
  }

  /** Meaning of one predicate on a row. PostgreSQL reads the search text as
      the id's integer type, which is the value `Atoi` gives. */
  predicate Matches(row: Product, p: Predicate) {
    match p
    case IdEquals(v) => Atoi(v).Some? && row.id == Atoi(v).value
    case NameLike(pattern) => Like(ToLower(row.name), pattern)
    case TypeIn(types) => row.productType.name in types
  }

  /** A row passes the `WHERE` clause when it meets every conjunct. */
  predicate Selects(where: seq<Predicate>, row: Product) {
    forall i | 0 <= i < |where| :: Matches(row, where[i])
  }

  /** What a listing request asks of a row, stated without the query. */
  predicate Wanted(req: ListProductQueryParams, row: Product) {
    && (req.search != "" && Atoi(req.search).Some? ==> row.id == Atoi(req.search).value)
    && (req.search != "" && Atoi(req.search).None? ==> Like(ToLower(row.name), NamePattern(req.search)))
    && (req.types != [] ==> row.productType.name in req.types)
  }

  /** The built filter selects exactly the wanted rows. */
  lemma ListQuerySelectsWanted(req: ListProductQueryParams, row: Product)
    ensures Selects(ListQuery(req).where, row) <==> Wanted(req, row)
  {
    var w := ListQuery(req).where;
    var s := SearchPredicates(req.search);
    if Wanted(req, row) {
      forall i | 0 <= i < |w|
        ensures Matches(row, w[i])
      {
        if i < |s| {
          assert w[i] == s[i];
        } else {
          assert w[i] == TypePredicates(req.types)[i - |s|];
        }
      }
    }
    if Selects(w, row) {
      if req.search != "" {
        assert Matches(row, w[0]);
      }
      if req.types != [] {
        assert Matches(row, w[|w| - 1]);
      }
    }
  }

  /** For a non-numeric search text free of `%`, `_` and `\`, the filter is a
      case-insensitive substring test on the name. */
  lemma NameSearchIsContainment(req: ListProductQueryParams, row: Product)
    requires req.search != "" && Atoi(req.search).None? && req.types == []
    requires IsLiteral(ToLower(req.search))
    ensures Selects(ListQuery(req).where, row) <==> ContainsString(ToLower(row.name), ToLower(req.search))
  {
    ListQuerySelectsWanted(req, row);
    LikeMeansContains(ToLower(row.name), ToLower(req.search));
  }

  /** `ORDER BY` expression for a sort field; `updated_at` falls back to
      `created_at` when null. */
  function OrderExpr(field: string): (e: string)
    ensures field == "updated_at" ==> e == UpdatedAtExpr
    ensures AllowedField(field) && field != "updated_at" ==> e == field
  {
    if field == "updated_at" then UpdatedAtExpr else field
  }

  /** `order` visits every key of `m` exactly once, as a Go map range does in
      some unspecified order. */
  predicate EnumeratesKeys(order: seq<string>, m: map<string, string>) {
    && |order| == |m|
    && (forall i | 0 <= i < |order| :: order[i] in m)
    && (forall i, j | 0 <= i < j < |order| :: order[i] != order[j])
  }

  function OrderTerms(m: map<string, string>, order: seq<string>): (terms: seq<OrderTerm>)
    requires forall i | 0 <= i < |order| :: order[i] in m
    ensures |terms| == |order|
    ensures forall i | 0 <= i < |order| :: terms[i] == OrderTerm(OrderExpr(order[i]), m[order[i]])
  {
    seq(|order|, i requires 0 <= i < |order| => OrderTerm(OrderExpr(order[i]), m[order[i]]))
  }

  /** `ListProduct`'s query: the shared filter, the row columns, one ordering
      clause per sort-map entry (visited in `order`) or `id asc` when the map
      is nil, the limit, and an offset from page two on. Both counts are
      handed to `uint64`, which wraps a negative or overflowing value. */
  function ListProduct(req: ListProductQueryParams, order: seq<string>): (q: SelectQuery)
    requires req.sortMap.Some? ==> EnumeratesKeys(order, req.sortMap.value)
    ensures q.where == ListQuery(req).where
    ensures q.columns == RowColumns && q.from == ProductsTable
    ensures req.sortMap.None? ==> q.orderBy == [OrderTerm("id", "asc")]
    ensures req.sortMap.Some? ==> |q.orderBy| == |req.sortMap.value|
    ensures req.sortMap.Some? ==>
              forall i | 0 <= i < |order| :: q.orderBy[i] == OrderTerm(OrderExpr(order[i]), req.sortMap.value[order[i]])
    ensures q.limit == Some(ToUint64(req.limit))
    ensures q.offset.Some? <==> req.page > 1
    ensures req.page > 1 ==> q.offset == Some(ToUint64(req.limit * (req.page - 1)))
  {
    var base := ListQuery(req).(columns := RowColumns);
    var orderBy := if req.sortMap.Some? then OrderTerms(req.sortMap.value, order) else [OrderTerm("id", "asc")];
    var offset := if req.page > 1 then Some(ToUint64(req.limit * (req.page - 1))) else None;
    base.(orderBy := orderBy, limit := Some(ToUint64(req.limit)), offset := offset)
  }

  /** Every sort-map entry yields exactly one ordering clause carrying its
      direction, whatever the visiting order, when the fields are the
      allow-listed ones. */
  lemma EachSortEntryOrdersOnce(req: ListProductQueryParams, order: seq<string>, field: string)
    requires req.sortMap.Some? && EnumeratesKeys(order, req.sortMap.value)
    requires forall f | f in req.sortMap.value :: AllowedField(f)
    requires field in req.sortMap.value
    ensures exists i | 0 <= i < |order| :: ListProduct(req, order).orderBy[i]
                                           == OrderTerm(OrderExpr(field), req.sortMap.value[field])
    ensures forall i, j | 0 <= i < j < |order| :: ListProduct(req, order).orderBy[i].expr
                                                  != ListProduct(req, order).orderBy[j].expr
  {
    var m := req.sortMap.value;
    var q := ListProduct(req, order);
    var i := EnumeratedIndex(order, m, field);
    assert q.orderBy[i] == OrderTerm(OrderExpr(field), m[field]);
    forall i, j | 0 <= i < j < |order|
      ensures q.orderBy[i].expr != q.orderBy[j].expr
    {
      OrderExprInjective(order[i], order[j]);
    }
  }

  lemma OrderExprInjective(f: string, g: string)
    requires AllowedField(f) && AllowedField(g) && f != g
    ensures OrderExpr(f) != OrderExpr(g)
  {
  }

  /** Where an enumeration visits a given key. */
  lemma EnumeratedIndex(order: seq<string>, m: map<string, string>, field: string) returns (i: nat)
    requires EnumeratesKeys(order, m) && field in m
    ensures i < |order| && order[i] == field
  {
    var keys := set i | 0 <= i < |order| :: order[i];
    assert keys <= m.Keys;
    SetOfDistinctSize(order);
    SubsetOfSameSize(keys, m.Keys);
    assert field in keys;
    i :| 0 <= i < |order| && order[i] == field;
  }

  lemma {:induction false} SetOfDistinctSize(order: seq<string>)
    requires forall i, j | 0 <= i < j < |order| :: order[i] != order[j]
    ensures |set i | 0 <= i < |order| :: order[i]| == |order|
  {
    if |order| > 0 {
      var init := order[..|order| - 1];
      SetOfDistinctSize(init);
      var s := set i | 0 <= i < |order| :: order[i];
      var s' := set i | 0 <= i < |init| :: init[i];
      assert s == s' + {order[|order| - 1]};
      assert order[|order| - 1] !in s';
    }
  }

  lemma SubsetOfSameSize(a: set<string>, b: set<string>)
    requires a <= b && |a| == |b|
    ensures a == b
  {
    assert b == a + (b - a);
    assert |b| == |a| + |b - a|;
    assert b - a == {};
  }

  /** For positive limit and page whose product fits a 64-bit `int`, the
      limit is the page size and the offset skips the earlier pages exactly. */
  lemma PagingWithoutWrap(req: ListProductQueryParams, order: seq<string>)
    requires req.sortMap.Some? ==> EnumeratesKeys(order, req.sortMap.value)
    requires req.limit >= 1 && req.page >= 1 && req.limit * req.page <= Int64Max
    ensures ListProduct(req, order).limit == Some(req.limit)
    ensures req.page > 1 ==> ListProduct(req, order).offset == Some(req.limit * (req.page - 1))
  {
    assert req.limit <= req.limit * req.page;
    assert req.limit * (req.page - 1) <= req.limit * req.page;
  }

  /** `TotalProduct`'s query: `count(id)` over the same filter, with no
      ordering and no paging. */
  function TotalProduct(req: ListProductQueryParams): (q: SelectQuery)
    ensures q.columns == CountColumns && q.from == ProductsTable
    ensures q.where == ListQuery(req).where
    ensures q.orderBy == [] && q.limit.None? && q.offset.None?
  {
    ListQuery(req).(columns := CountColumns)
  }

  /** The rows a filter keeps, in table order. */
  function Filter(table: seq<Product>, where: seq<Predicate>): (rows: seq<Product>)
    ensures |rows| <= |table|
    ensures forall r | r in rows :: r in table && Selects(where, r)
    ensures forall r | r in table && Selects(where, r) :: r in rows
  {
    if |table| == 0 then []
    else if Selects(where, table[0]) then [table[0]] + Filter(table[1..], where)
    else Filter(table[1..], where)
  }

  /** With multiplicity: the filter keeps every copy of a selected row and
      no copy of any other, so the count query counts duplicates too. */
  lemma {:induction false} FilterKeepsMultiplicity(table: seq<Product>, where: seq<Predicate>, r: Product)
    ensures multiset(Filter(table, where))[r] == (if Selects(where, r) then multiset(table)[r] else 0)
  {
    if |table| > 0 {
      FilterKeepsMultiplicity(table[1..], where, r);
      assert table == [table[0]] + table[1..];
      assert multiset(table) == multiset{table[0]} + multiset(table[1..]);
      if Selects(where, table[0]) {
        var rest := Filter(table[1..], where);
        assert multiset([table[0]] + rest) == multiset{table[0]} + multiset(rest);
      }
    }
  }

  /** The result of `TotalProduct` evaluated over a table. */
  function CountRows(table: seq<Product>, req: ListProductQueryParams): nat
  {
    |Filter(table, TotalProduct(req).where)|
  }

  /** The page a paged query returns from rows already filtered and ordered. */
  function Paged(ordered: seq<Product>, q: SelectQuery): (rows: seq<Product>)
    ensures q.limit.Some? ==> |rows| <= q.limit.value
    ensures forall r | r in rows :: r in ordered
  {
    var start := if q.offset.Some? then q.offset.value else 0;
    if start >= |ordered| then []
    else
      var end := if q.limit.Some? && start + q.limit.value < |ordered| then start + q.limit.value else |ordered|;
      ordered[start..end]
  }

  /** Rows and count agree: whatever order the database picks, every row of
      any page is a row the count query counts. */
  lemma PagedRowsAreCounted(table: seq<Product>, ordered: seq<Product>, req: ListProductQueryParams,
                            order: seq<string>, r: Product)
    requires req.sortMap.Some? ==> EnumeratesKeys(order, req.sortMap.value)
    requires multiset(ordered) == multiset(Filter(table, ListProduct(req, order).where))
    requires r in Paged(ordered, ListProduct(req, order))
    ensures r in Filter(table, TotalProduct(req).where)
  {
    assert r in multiset(ordered);
  }
}

=== FILE: service.dfy ===
/** `ProductService` (internal/service/product.go) over an abstract
    repository. Each repository operation is a function parameter and every
    call the service makes is recorded, so that "the repository was not
    asked" can be stated. */
module Service {
  import opened Wrappers
  import opened GoStrings
  import opened Decimal
  import opened Errs
  import opened SqlLike
  import opened ProductParams
  import opened Domain
  import ProductQuery
  import Handler

  /** One product of a listing response. */
  datatype ProductResponse = ProductResponse(
    id: int, name: string, quantity: int, price: int, productType: string, updateAt: Time)

  datatype ListProductResponses = ListProductResponses(
    totalData: int, totalPage: int, products: seq<ProductResponse>)

  datatype CreateProductResponse = CreateProductResponse(id: int)

  /** A repository call the service makes. */
  datatype Call =
    | TotalCall(query: ListProductQueryParams, withCache: bool)
    | ListCall(query: ListProductQueryParams)
    | CreateCall(request: CreateOrUpdateProductRequest)

  /** A service call's result together with the repository calls it made. */
  datatype Served<T> = Served(result: Result<T, Error>, calls: seq<Call>)

  type TotalRepo = (ListProductQueryParams, bool) -> Result<int, Error>
  type ListRepo = ListProductQueryParams -> Result<seq<Product>, Error>
  type CreateRepo = CreateOrUpdateProductRequest -> Result<int, Error>

  /** Go's `/` on `int`: the quotient truncated toward zero. */
  function GoQuo(a: int, b: int): (q: int)
    requires b != 0
    ensures a >= 0 && b > 0 ==> q == a / b
  {
    var aa := if a < 0 then -a else a;
    var bb := if b < 0 then -b else b;
    if (a < 0) != (b < 0) then -(aa / bb) else aa / bb
  }

  /** Go's `%` on `int`: the remainder takes the sign of the dividend. */
  function GoRem(a: int, b: int): (r: int)
    requires b != 0
    ensures a == GoQuo(a, b) * b + r
    ensures a >= 0 && b > 0 ==> r == a % b
  {
    a - GoQuo(a, b) * b
  }

  /** Go's division truncates toward zero: negating either operand negates
      the quotient, and the remainder has the dividend's sign and is smaller
      than the divisor in magnitude (unlike Dafny's Euclidean `%`). */
  lemma GoDivisionTruncates(a: int, b: int)
    requires b != 0
    ensures GoQuo(-a, b) == -GoQuo(a, b) && GoQuo(a, -b) == -GoQuo(a, b)
    ensures 0 <= a ==> 0 <= GoRem(a, b) < (if b < 0 then -b else b)
    ensures a < 0 ==> -(if b < 0 then -b else b) < GoRem(a, b) <= 0
  {
    GoQuoNegates(a, b);
    GoRemIsSignedMod(a, b);
  }

  /** The magnitude of Go's quotient depends only on the magnitudes. */
  lemma GoQuoNegates(a: int, b: int)
    requires b != 0
    ensures GoQuo(-a, b) == -GoQuo(a, b) && GoQuo(a, -b) == -GoQuo(a, b)
  {
    var aa := if a < 0 then -a else a;
    var bb := if b < 0 then -b else b;
    if a == 0 {
      assert aa / bb == 0;
    }
  }

  /** Go's remainder is the magnitudes' remainder, given the dividend's sign. */
  lemma GoRemIsSignedMod(a: int, b: int)
    requires b != 0
    ensures var aa, bb := (if a < 0 then -a else a), (if b < 0 then -b else b);
            GoRem(a, b) == (if a < 0 then -(aa % bb) else aa % bb) && 0 <= aa % bb < bb
  {
    var aa := if a < 0 then -a else a;
    var bb := if b < 0 then -b else b;
    var q := aa / bb;
    assert aa == q * bb + aa % bb;
    if b < 0 {
      assert q * b == -(q * bb);
    }
  }

  /** The page count: the quotient, plus one for a partly filled last page. */
  function TotalPages(total: int, limit: int): int
    requires limit != 0
  {
    GoQuo(total, limit) + (if GoRem(total, limit) != 0 then 1 else 0)
  }

  /** A non-zero multiple of a positive number is at least that number in
      magnitude. */
  lemma MulSign(k: int, d: int)
    requires d > 0
    ensures k >= 1 ==> k * d >= d
    ensures k <= -1 ==> k * d <= -d
  {
    if k >= 1 {
      MulMonotone(d, 1, k);
    }
    if k <= -1 {
      MulMonotone(d, k, -1);
    }
  }

  /** Euclidean division is fixed by any quotient and in-range remainder. */
  lemma DivideUnique(n: int, d: int, q: int, r: int)
    requires d > 0 && 0 <= r < d && n == q * d + r
    ensures n / d == q
  {
    var q', r' := n / d, n % d;
    assert n == q' * d + r';
    assert (q - q') * d == r' - r;
    MulSign(q - q', d);
  }

  /** For a non-negative total the page count is the ceiling of total / limit. */
  lemma TotalPagesIsCeiling(total: int, limit: int)
    requires total >= 0 && limit > 0
    ensures TotalPages(total, limit) == (total + limit - 1) / limit
  {
    var q, r := total / limit, total % limit;
    assert total == q * limit + r;
    if r == 0 {
      DivideUnique(total + limit - 1, limit, q, limit - 1);
    } else {
      assert (q + 1) * limit == q * limit + limit;
      DivideUnique(total + limit - 1, limit, q + 1, r - 1);
    }
  }

  /** For a positive total and page size the pages are just enough: every
      item falls on some page and no page lies wholly past the end. */
  lemma TotalPagesCover(total: int, limit: int)
    requires total > 0 && limit > 0
    ensures TotalPages(total, limit) >= 1
    ensures (TotalPages(total, limit) - 1) * limit < total <= TotalPages(total, limit) * limit
  {
    var q, r := total / limit, total % limit;
    assert total == q * limit + r;
    if r == 0 {
      assert TotalPages(total, limit) == q;
      assert q >= 1;
    } else {
      assert TotalPages(total, limit) == q + 1;
      assert (q + 1) * limit == q * limit + limit;
    }
  }

  /** One scanned row as the response shows it. The quantity is not copied
      and stays zero; the update time falls back to the creation time. */
  function ToResponse(p: Product): (r: ProductResponse)
    ensures r.id == p.id && r.name == p.name && r.price == p.price
    ensures r.productType == p.productType.name
    ensures r.quantity == 0
    ensures r.updateAt == (if p.updatedAt.Some? then p.updatedAt.value else p.createdAt)
  {
    var updatedAt := if p.updatedAt.Some? then p.updatedAt.value else p.createdAt;
    ProductResponse(p.id, p.name, 0, p.price, p.productType.name, updatedAt)
  }

  function ToResponses(rows: seq<Product>): (rs: seq<ProductResponse>)
    ensures |rs| == |rows|
    ensures forall i | 0 <= i < |rows| :: rs[i] == ToResponse(rows[i])
  {
    seq(|rows|, i requires 0 <= i < |rows| => ToResponse(rows[i]))
  }

  /** The service divides by the limit exactly when the count is non-zero
      and the rows were fetched; Go panics there on a zero limit. */
  predicate ReachesDivision(total: TotalRepo, list: ListRepo, req: ListProductQueryParams) {
    total(req, true).Ok? && total(req, true).value != 0 && list(req).Ok?
  }

  /** `ListProduct`: the (cached) count first; a zero count answers at once
      with no rows; otherwise the rows are fetched and mapped, and the page
      count derived from the count and the limit. Repository errors are
      returned unchanged. */
  function ListProduct(total: TotalRepo, list: ListRepo, req: ListProductQueryParams): (o: Served<ListProductResponses>)
    requires ReachesDivision(total, list, req) ==> req.limit != 0
    ensures |o.calls| >= 1 && o.calls[0] == TotalCall(req, true)
    ensures ListCall(req) in o.calls <==> total(req, true).Ok? && total(req, true).value != 0
    ensures o.calls == [TotalCall(req, true)] + (if total(req, true).Ok? && total(req, true).value != 0 then [ListCall(req)] else [])
    ensures total(req, true).Err? ==> o.result == Err(total(req, true).error)
    ensures total(req, true) == Ok(0) ==> o.result == Ok(ListProductResponses(0, 0, []))
    ensures total(req, true).Ok? && total(req, true).value != 0 && list(req).Err? ==>
              o.result == Err(list(req).error)
    ensures ReachesDivision(total, list, req) ==>
              && o.result.Ok?
              && o.result.value.totalData == total(req, true).value
              && o.result.value.totalPage == TotalPages(total(req, true).value, req.limit)
              && |o.result.value.products| == |list(req).value|
              && forall i | 0 <= i < |list(req).value| :: o.result.value.products[i] == ToResponse(list(req).value[i])
  {
    var counted := total(req, true);
    if counted.Err? then Served(Err(counted.error), [TotalCall(req, true)])
    else if counted.value == 0 then Served(Ok(ListProductResponses(0, 0, [])), [TotalCall(req, true)])
    else
      var calls := [TotalCall(req, true), ListCall(req)];
      var rows := list(req);
      if rows.Err? then Served(Err(rows.error), calls)
      else Served(Ok(ListProductResponses(counted.value, TotalPages(counted.value, req.limit), ToResponses(rows.value))), calls)
  }

  /** The query the existence check builds: only the search text is set. */
  function ExistenceQuery(name: string): ListProductQueryParams
  {
    ListProductQueryParams(name, [], [], None, 0, 0, "")
  }

  const DuplicateText: string := "product already exist"

  /** `CreateProduct`: counts products matching the name (bypassing the
      cache), refuses when any match, and only then asks the repository to
      insert. */
  function CreateProduct(total: TotalRepo, create: CreateRepo, req: CreateOrUpdateProductRequest): (o: Served<CreateProductResponse>)
    ensures |o.calls| >= 1 && o.calls[0] == TotalCall(ExistenceQuery(req.name), false)
    ensures CreateCall(req) in o.calls <==>
              total(ExistenceQuery(req.name), false).Ok? && total(ExistenceQuery(req.name), false).value <= 0
    ensures o.calls == [TotalCall(ExistenceQuery(req.name), false)] +
              (if total(ExistenceQuery(req.name), false).Ok? && total(ExistenceQuery(req.name), false).value <= 0
               then [CreateCall(req)] else [])
    ensures total(ExistenceQuery(req.name), false).Err? ==>
              o.result == Err(total(ExistenceQuery(req.name), false).error)
    ensures total(ExistenceQuery(req.name), false).Ok? && total(ExistenceQuery(req.name), false).value > 0 ==>
              o.result == Err(Plain(DuplicateText))
    ensures total(ExistenceQuery(req.name), false).Ok? && total(ExistenceQuery(req.name), false).value <= 0 ==>
              o.result == (if create(req).Ok? then Ok(CreateProductResponse(create(req).value)) else Err(create(req).error))
  {
    var check := TotalCall(ExistenceQuery(req.name), false);
    var counted := total(ExistenceQuery(req.name), false);
    if counted.Err? then Served(Err(counted.error), [check])
    else if counted.value > 0 then Served(Err(Plain(DuplicateText)), [check])
    else
      var created := create(req);
      var calls := [check, CreateCall(req)];
      if created.Err? then Served(Err(created.error), calls)
      else Served(Ok(CreateProductResponse(created.value)), calls)
  }

  /** A duplicate is refused with an untyped error, so the error writer
      answers 500 "server error" rather than 409. */
  lemma DuplicateReportedAsServerError(total: TotalRepo, create: CreateRepo, req: CreateOrUpdateProductRequest, status: int)
    requires total(ExistenceQuery(req.name), false).Ok? && total(ExistenceQuery(req.name), false).value > 0
    ensures CreateProduct(total, create, req).result.Err?
    ensures Handler.Classify(status, CreateProduct(total, create, req).result.error)
            == Handler.ApiError(StatusInternalServerError, "server error")
  {
  }

  /** The count repository backed by a table: `TotalProduct`'s query
      evaluated over its rows. */
  function TableTotal(table: seq<Product>): TotalRepo
  {
    (q: ListProductQueryParams, withCache: bool) => Ok(ProductQuery.CountRows(table, q))
  }

  /** Over a table, the existence check is a case-insensitive substring
      test: for a non-numeric name free of `%`, `_` and `\`, the insert is
      attempted exactly when no stored name contains the new one. */
  lemma CreateReachesRepoIffNoContainingName(table: seq<Product>, create: CreateRepo, req: CreateOrUpdateProductRequest)
    requires req.name != "" && Atoi(req.name).None? && IsLiteral(ToLower(req.name))
    ensures CreateCall(req) in CreateProduct(TableTotal(table), create, req).calls <==>
              forall r | r in table :: !ContainsString(ToLower(r.name), ToLower(req.name))
  {
    var q := ExistenceQuery(req.name);
    var where := ProductQuery.TotalProduct(q).where;
    var kept := ProductQuery.Filter(table, where);
    assert TableTotal(table)(q, false) == Ok(|kept|);
    if |kept| > 0 {
      var r := kept[0];
      ProductQuery.NameSearchIsContainment(q, r);
      assert r in table && ContainsString(ToLower(r.name), ToLower(req.name));
    }
    forall r | r in table && ContainsString(ToLower(r.name), ToLower(req.name))
      ensures |kept| > 0
    {
      ProductQuery.NameSearchIsContainment(q, r);
      assert r in kept;
    }
  }

  /** Over a table, a name that parses as an integer is compared with the
      ids instead: the insert is attempted exactly when no row has that id. */
  lemma NumericNameChecksIds(table: seq<Product>, create: CreateRepo, req: CreateOrUpdateProductRequest)
    requires req.name != "" && Atoi(req.name).Some?
    ensures CreateCall(req) in CreateProduct(TableTotal(table), create, req).calls <==>
              forall r | r in table :: r.id != Atoi(req.name).value
  {
    var q := ExistenceQuery(req.name);
    var where := ProductQuery.TotalProduct(q).where;
    var kept := ProductQuery.Filter(table, where);
    assert TableTotal(table)(q, false) == Ok(|kept|);
    if |kept| > 0 {
      ProductQuery.ListQuerySelectsWanted(q, kept[0]);
    }
    forall r | r in table && r.id == Atoi(req.name).value
      ensures |kept| > 0
    {
      ProductQuery.ListQuerySelectsWanted(q, r);
      assert r in kept;
    }
  }

  lemma MulMonotone(a: int, b: int, c: int)
    requires a >= 0 && b <= c
    ensures a * b <= a * c
  {
    assert a * c - a * b == a * (c - b);
  }

  /** The page arithmetic: page `page` starts inside the items exactly when
      it is at most the page count, and pages before the last end inside them. */
  lemma PageStarts(n: int, limit: int, page: int)
    requires n > 0 && limit >= 1 && page >= 1
    ensures limit * (page - 1) < n <==> page <= TotalPages(n, limit)
    ensures page < TotalPages(n, limit) ==> limit * (page - 1) + limit < n
  {
    var pages := TotalPages(n, limit);
    TotalPagesCover(n, limit);
    if page <= pages {
      MulMonotone(limit, page - 1, pages - 1);
    } else {
      MulMonotone(limit, pages, page - 1);
    }
    if page < pages {
      MulMonotone(limit, page, pages - 1);
      assert limit * (page - 1) + limit == limit * page;
    }
  }

  lemma SameLength<T>(a: seq<T>, b: seq<T>)
    requires multiset(a) == multiset(b)
    ensures |a| == |b|
  {
    assert |multiset(a)| == |a|;
  }

  /** Count, page count and rows agree: with rows fetched by the paged query
      over the same filter the count uses, a page is non-empty exactly when
      its number is at most the reported page count, and every page before
      the last is full. */
  lemma PagesMatchPageCount(table: seq<Product>, ordered: seq<Product>, req: ListProductQueryParams, order: seq<string>)
    requires req.sortMap.Some? ==> ProductQuery.EnumeratesKeys(order, req.sortMap.value)
    requires req.limit >= 1 && req.page >= 1 && req.limit * req.page <= Int64Max
    requires multiset(ordered) == multiset(ProductQuery.Filter(table, ProductQuery.ListQuery(req).where))
    requires ProductQuery.CountRows(table, req) > 0
    ensures var page := ProductQuery.Paged(ordered, ProductQuery.ListProduct(req, order));
            var pages := TotalPages(ProductQuery.CountRows(table, req), req.limit);
            && (|page| > 0 <==> req.page <= pages)
            && (req.page < pages ==> |page| == req.limit)
  {
    var n := ProductQuery.CountRows(table, req);
    SameLength(ordered, ProductQuery.Filter(table, ProductQuery.ListQuery(req).where));
    ProductQuery.PagingWithoutWrap(req, order);
    var start := req.limit * (req.page - 1);
    var q := ProductQuery.ListProduct(req, order);
    assert (if q.offset.Some? then q.offset.value else 0) == start;
    PagedLength(ordered, q, start, req.limit);
    PageStarts(n, req.limit, req.page);
  }

  /** The length of a page, from where it starts and the limit. */
  lemma PagedLength(ordered: seq<Product>, q: ProductQuery.SelectQuery, start: nat, limit: nat)
    requires q.limit == Some(limit) && (if q.offset.Some? then q.offset.value else 0) == start
    ensures |ProductQuery.Paged(ordered, q)| ==
              if start >= |ordered| then 0 else if start + limit < |ordered| then limit else |ordered| - start
  {
  }
}

=== FILE: sortmap.dfy ===
/** The sort-token loop both request normalisers run, parameterised by their
    per-token check: tokens are checked in order, the first bad one stops the
    loop, and each good one is assigned into a `field -> direction` map, so for
    a repeated field the last token wins. */
module SortMaps {
  import opened Wrappers
  import opened Errs

  /** One `field:direction` pair after normalisation. */
  datatype Binding = Binding(field: string, direction: string)

  /** Successive `m[field] = direction` assignments, in order. */
  function Assign(m: map<string, string>, bs: seq<Binding>): map<string, string>
    decreases |bs|
  {
    if |bs| == 0 then m else Assign(m[bs[0].field := bs[0].direction], bs[1..])
  }

  /** The direction of the last binding of `f`, scanning from the end. */
  function LastBinding(bs: seq<Binding>, f: string): (r: Option<string>)
    ensures r.None? <==> forall i | 0 <= i < |bs| :: bs[i].field != f
  {
    if |bs| == 0 then None
    else if bs[|bs| - 1].field == f then Some(bs[|bs| - 1].direction)
    else LastBinding(bs[..|bs| - 1], f)
  }

  /** Appending one binding to the assignments is one more map update. */
  lemma {:induction false} AssignSnoc(m: map<string, string>, bs: seq<Binding>, b: Binding)
    ensures Assign(m, bs + [b]) == Assign(m, bs)[b.field := b.direction]
    decreases |bs|
  {
    if |bs| == 0 {
      assert bs + [b] == [b];
    } else {
      assert (bs + [b])[1..] == bs[1..] + [b];
      AssignSnoc(m[bs[0].field := bs[0].direction], bs[1..], b);
    }
  }

  /** The map the assignments leave behind: every assigned field holds the
      direction of its last binding, and untouched keys keep their value. */
  lemma {:induction false} AssignIsLastWins(m: map<string, string>, bs: seq<Binding>, f: string)
    ensures f in Assign(m, bs) <==> f in m || LastBinding(bs, f).Some?
    ensures LastBinding(bs, f).Some? ==> Assign(m, bs)[f] == LastBinding(bs, f).value
    ensures LastBinding(bs, f).None? && f in m ==> Assign(m, bs)[f] == m[f]
    decreases |bs|
  {
    if |bs| > 0 {
      var init := bs[..|bs| - 1];
      var last := bs[|bs| - 1];
      assert bs == init + [last];
      AssignSnoc(m, init, last);
      AssignIsLastWins(m, init, f);
    }
  }

  /** A per-token check: `None` accepts the token, `Some(e)` rejects it with `e`. */
  type Check = string -> Option<Error>

  predicate AllValid(check: Check, tokens: seq<string>) {
    forall i | 0 <= i < |tokens| :: check(tokens[i]).None?
  }

  /** `k` is the position of the first rejected token. */
  predicate FirstInvalid(check: Check, tokens: seq<string>, k: int) {
    0 <= k < |tokens| && check(tokens[k]).Some? && AllValid(check, tokens[..k])
  }

  function Bindings(bind: string -> Binding, tokens: seq<string>): (bs: seq<Binding>)
    ensures |bs| == |tokens|
    ensures forall i | 0 <= i < |tokens| :: bs[i] == bind(tokens[i])
  {
    seq(|tokens|, i requires 0 <= i < |tokens| => bind(tokens[i]))
  }

  /** What the token loop leaves behind: the map it filled and its error. */
  datatype Parsed = Parsed(sortMap: map<string, string>, err: Option<Error>)

  /** The token loop starting from map `m`: it fails with the first rejected
      token's error, keeping the assignments of the tokens before it, and
      otherwise assigns every token's binding. */
  function ParseSorts(check: Check, bind: string -> Binding, m: map<string, string>, tokens: seq<string>): (r: Parsed)
    ensures r.err.None? <==> AllValid(check, tokens)
    ensures r.err.None? ==> r.sortMap == Assign(m, Bindings(bind, tokens))
    ensures r.err.Some? ==> exists k :: FirstInvalid(check, tokens, k) && r.err == check(tokens[k])
                                        && r.sortMap == Assign(m, Bindings(bind, tokens[..k]))
    decreases |tokens|
  {
    if |tokens| == 0 then Parsed(m, None)
    else
      var t := tokens[0];
      if check(t).Some? then
        assert FirstInvalid(check, tokens, 0);
        Parsed(m, check(t))
      else
        var rest := ParseSorts(check, bind, m[bind(t).field := bind(t).direction], tokens[1..]);
        ParseSortsStep(check, bind, m, tokens, rest);
        rest
  }

  lemma AllValidCons(check: Check, tokens: seq<string>)
    requires |tokens| > 0 && check(tokens[0]).None?
    ensures AllValid(check, tokens) <==> AllValid(check, tokens[1..])
  {
    if AllValid(check, tokens[1..]) {
      forall i | 1 <= i < |tokens|
        ensures check(tokens[i]).None?
      {
        assert tokens[i] == tokens[1..][i - 1];
      }
    }
  }

  /** A first bad token of the tail is the first bad token of the whole list
      when the head is good. */
  lemma FirstInvalidShift(check: Check, tokens: seq<string>, k: int)
    requires |tokens| > 0 && check(tokens[0]).None? && FirstInvalid(check, tokens[1..], k)
    ensures FirstInvalid(check, tokens, k + 1)
    ensures tokens[1..][k] == tokens[k + 1]
    ensures tokens[..k + 1][1..] == tokens[1..][..k]
  {
    var pre := tokens[..k + 1];
    assert pre[1..] == tokens[1..][..k];
    assert pre[0] == tokens[0];
    AllValidCons(check, pre);
  }

  lemma BindingsCons(bind: string -> Binding, tokens: seq<string>)
    requires |tokens| > 0
    ensures Bindings(bind, tokens) == [bind(tokens[0])] + Bindings(bind, tokens[1..])
  {
  }

  /** One step of the loop: what the tail establishes carries over to the
      whole list once the head's binding is assigned. */
  lemma ParseSortsStep(check: Check, bind: string -> Binding, m: map<string, string>, tokens: seq<string>, rest: Parsed)
    requires |tokens| > 0 && check(tokens[0]).None?
    requires var m' := m[bind(tokens[0]).field := bind(tokens[0]).direction];
             && (rest.err.None? <==> AllValid(check, tokens[1..]))
             && (rest.err.None? ==> rest.sortMap == Assign(m', Bindings(bind, tokens[1..])))
             && (rest.err.Some? ==> exists k :: FirstInvalid(check, tokens[1..], k) && rest.err == check(tokens[1..][k])
                                                && rest.sortMap == Assign(m', Bindings(bind, tokens[1..][..k])))
    ensures rest.err.None? <==> AllValid(check, tokens)
    ensures rest.err.None? ==> rest.sortMap == Assign(m, Bindings(bind, tokens))
    ensures rest.err.Some? ==> exists k :: FirstInvalid(check, tokens, k) && rest.err == check(tokens[k])
                                           && rest.sortMap == Assign(m, Bindings(bind, tokens[..k]))
  {
    var t := tokens[0];
    if rest.err.Some? {
      var k :| FirstInvalid(check, tokens[1..], k) && rest.err == check(tokens[1..][k])
               && rest.sortMap == Assign(m[bind(t).field := bind(t).direction], Bindings(bind, tokens[1..][..k]));
      FirstInvalidShift(check, tokens, k);
      BindingsCons(bind, tokens[..k + 1]);
    } else {
      AllValidCons(check, tokens);
      BindingsCons(bind, tokens);
    }
  }

  /** The whole loop from an empty map, described without the loop: on
      success every field named by some token holds the direction of the last
      token naming it, and no other field is present. */
  lemma ParseSortsLastWins(check: Check, bind: string -> Binding, tokens: seq<string>, f: string)
    requires AllValid(check, tokens)
    ensures var m := ParseSorts(check, bind, map[], tokens).sortMap;
            var bs := Bindings(bind, tokens);
            (f in m <==> LastBinding(bs, f).Some?) &&
            (f in m ==> m[f] == LastBinding(bs, f).value)
  {
    AssignIsLastWins(map[], Bindings(bind, tokens), f);
  }
}

=== FILE: strings.dfy ===
/** The parts of Go's `strings` package that the request normalisers rely on:
    `Split` on a one-character separator, `TrimSpace`, `ToLower`, `HasPrefix`,
    `Contains` and the concatenation a `strings.Builder` performs. */
module GoStrings {

  /** `unicode.IsSpace`: the Latin-1 spaces plus every code point carrying the
      Unicode White_Space property. */
  predicate IsSpace(c: char) {
    || c == ' ' || c == '\t' || c == '\n' || c == '\r'
    || c == '\U{000B}' || c == '\U{000C}' || c == '\U{0085}' || c == '\U{00A0}'
    || c == '\U{1680}' || ('\U{2000}' <= c <= '\U{200A}')
    || c == '\U{2028}' || c == '\U{2029}' || c == '\U{202F}' || c == '\U{205F}'
    || c == '\U{3000}'
  }

  /** Number of leading white-space characters of `s`. */
  function LeadingSpaces(s: string): (n: nat)
    ensures n <= |s|
    ensures forall i | 0 <= i < n :: IsSpace(s[i])
    ensures n < |s| ==> !IsSpace(s[n])
  {
    if |s| > 0 && IsSpace(s[0]) then 1 + LeadingSpaces(s[1..]) else 0
  }

  /** `s` without its trailing white space. */
  function TrimRight(s: string): (r: string)
    ensures |r| <= |s| && r == s[..|r|]
    ensures |r| > 0 ==> !IsSpace(r[|r| - 1])
    ensures forall i | |r| <= i < |s| :: IsSpace(s[i])
  {
    if |s| > 0 && IsSpace(s[|s| - 1]) then
      var t := s[..|s| - 1];
      var r := TrimRight(t);
      assert r == t[..|r|] == s[..|r|];
      assert forall i | |r| <= i < |t| :: s[i] == t[i];
      r
    else s
  }

  /** `strings.TrimSpace`: the longest slice of `s` that neither starts nor
      ends with white space, obtained by dropping white space at both ends. */
  function TrimSpace(s: string): (r: string)
    ensures LeadingSpaces(s) + |r| <= |s|
    ensures r == s[LeadingSpaces(s)..LeadingSpaces(s) + |r|]
    ensures |r| > 0 ==> !IsSpace(r[0]) && !IsSpace(r[|r| - 1])
    ensures forall i | 0 <= i < LeadingSpaces(s) :: IsSpace(s[i])
    ensures forall i | LeadingSpaces(s) + |r| <= i < |s| :: IsSpace(s[i])
  {
    var n := LeadingSpaces(s);
    var t := s[n..];
    var r := TrimRight(t);
    assert r == t[..|r|] == s[n..n + |r|];
    assert forall i | n + |r| <= i < |s| :: s[i] == t[i - n];
    r
  }

  /** Trimming a string that is already trimmed changes nothing. */
  lemma TrimSpaceIdempotent(s: string)
    ensures TrimSpace(TrimSpace(s)) == TrimSpace(s)
  {
    var r := TrimSpace(s);
    assert LeadingSpaces(r) == 0;
    assert TrimRight(r) == r;
  }

  /** Lower-case mapping of one character; only ASCII letters change. */
  function LowerChar(c: char): (d: char)
    ensures !('A' <= d <= 'Z')
    ensures 'A' <= c <= 'Z' <==> d != c
  {
    if 'A' <= c <= 'Z' then (c as int + 32) as char else c
  }

  predicate IsLower(s: string) {
    forall i | 0 <= i < |s| :: !('A' <= s[i] <= 'Z')
  }

  /** `strings.ToLower` on the ASCII range. */
  function ToLower(s: string): (r: string)
    ensures |r| == |s|
    ensures IsLower(r)
    ensures forall i | 0 <= i < |s| :: r[i] == LowerChar(s[i])
  {
    seq(|s|, i requires 0 <= i < |s| => LowerChar(s[i]))
  }

  /** Lower-casing is idempotent, and a string without upper-case letters is
      its own lower-case form. */
  lemma ToLowerFixesLower(s: string)
    ensures IsLower(s) <==> ToLower(s) == s
    ensures ToLower(ToLower(s)) == ToLower(s)
  {
    if IsLower(s) {
      assert forall i | 0 <= i < |s| :: ToLower(s)[i] == s[i];
    }
  }

  predicate HasPrefix(s: string, prefix: string) {
    |prefix| <= |s| && s[..|prefix|] == prefix
  }

  predicate HasSuffix(s: string, suffix: string) {
    |suffix| <= |s| && s[|s| - |suffix|..] == suffix
  }

  /** `x` occurs as a contiguous piece of `s`. */
  predicate ContainsString(s: string, x: string) {
    exists i | 0 <= i <= |s| :: HasPrefix(s[i..], x)
  }

  /** Number of occurrences of `c` in `s`. */
  function Count(s: string, c: char): nat {
    if |s| == 0 then 0 else (if s[0] == c then 1 else 0) + Count(s[1..], c)
  }

  lemma CountZero(s: string, c: char)
    ensures Count(s, c) == 0 <==> c !in s
  {
    if |s| > 0 {
      CountZero(s[1..], c);
      assert s == [s[0]] + s[1..];
    }
  }

  lemma CountAppend(a: string, b: string, c: char)
    ensures Count(a + b, c) == Count(a, c) + Count(b, c)
  {
    if |a| == 0 {
      assert a + b == b;
    } else {
      assert (a + b)[1..] == a[1..] + b;
      CountAppend(a[1..], b, c);
    }
  }

  /** Index of the first `c` in `s`. */
  function IndexOf(s: string, c: char): (i: nat)
    requires c in s
    ensures i < |s| && s[i] == c && c !in s[..i]
  {
    if s[0] == c then 0 else 1 + IndexOf(s[1..], c)
  }

  /** The first occurrence is the one with no earlier occurrence. */
  lemma {:induction false} IndexOfAt(s: string, c: char, j: nat)
    requires j < |s| && s[j] == c && c !in s[..j]
    ensures IndexOf(s, c) == j
  {
    if j > 0 {
      assert s[0] == s[..j][0];
      assert s[1..][..j - 1] == s[..j][1..];
      IndexOfAt(s[1..], c, j - 1);
    }
  }

  /** Pieces joined back together with `sep` between neighbours
      (`strings.Join` with a one-character separator). */
  function Join(parts: seq<string>, sep: char): string
  {
    if |parts| == 0 then ""
    else if |parts| == 1 then parts[0]
    else parts[0] + [sep] + Join(parts[1..], sep)
  }

  /** `strings.Split(s, sep)` for a one-character separator: the pieces
      between separators, so one more piece than there are separators. */
  function Split(s: string, sep: char): (parts: seq<string>)
    ensures |parts| >= 1
    ensures forall i | 0 <= i < |parts| :: sep !in parts[i]
    ensures Join(parts, sep) == s
    decreases |s|
  {
    if sep !in s then [s]
    else
      var i := IndexOf(s, sep);
      assert s == s[..i] + [sep] + s[i + 1..];
      [s[..i]] + Split(s[i + 1..], sep)
  }

  /** A string without the separator is a single piece. */
  lemma SplitNoSeparator(s: string, sep: char)
    requires sep !in s
    ensures Split(s, sep) == [s]
  {
  }

  lemma {:induction false} JoinSnoc(parts: seq<string>, sep: char, x: string)
    requires |parts| >= 1
    ensures Join(parts + [x], sep) == Join(parts, sep) + [sep] + x
    decreases |parts|
  {
    if |parts| == 1 {
      assert parts + [x] == [parts[0], x];
    } else {
      assert (parts + [x])[1..] == parts[1..] + [x];
      JoinSnoc(parts[1..], sep, x);
    }
  }

  /** A trailing separator adds one empty last piece. */
  lemma SplitTrailingSeparator(s: string, sep: char)
    ensures Split(s + [sep], sep) == Split(s, sep) + [""]
  {
    var parts := Split(s, sep) + [""];
    JoinSnoc(Split(s, sep), sep, "");
    SplitUnique(s + [sep], sep, parts);
  }

  /** Splitting yields one piece more than the number of separators. */
  lemma {:induction false} SplitLength(s: string, sep: char)
    ensures |Split(s, sep)| == Count(s, sep) + 1
    decreases |s|
  {
    if sep !in s {
      CountZero(s, sep);
    } else {
      var i := IndexOf(s, sep);
      assert s == s[..i] + ([sep] + s[i + 1..]);
      CountAppend(s[..i], [sep] + s[i + 1..], sep);
      CountAppend([sep], s[i + 1..], sep);
      CountZero(s[..i], sep);
      assert Count([sep], sep) == 1;
      SplitLength(s[i + 1..], sep);
    }
  }

  /** Split is the only separator-free decomposition that joins back to `s`. */
  lemma {:induction false} SplitUnique(s: string, sep: char, parts: seq<string>)
    requires |parts| >= 1
    requires forall i | 0 <= i < |parts| :: sep !in parts[i]
    requires Join(parts, sep) == s
    ensures parts == Split(s, sep)
    decreases |parts|
  {
    if |parts| == 1 {
      assert s == parts[0];
    } else {
      var rest := Join(parts[1..], sep);
      assert s == parts[0] + [sep] + rest;
      var i := |parts[0]|;
      assert s[i] == sep;
      assert s[..i] == parts[0];
      IndexOfAt(s, sep, i);
      assert s[i + 1..] == rest;
      SplitUnique(rest, sep, parts[1..]);
    }
  }

  /** The concatenation a `strings.Builder` produces from successive writes. */
  function Concat(pieces: seq<string>): string
  {
    if |pieces| == 0 then "" else pieces[0] + Concat(pieces[1..])
  }

  /** Flattening a sequence of sequences, keeping the order of the pieces. */
  function Flatten(xss: seq<seq<string>>): (r: seq<string>)
    ensures |xss| == 0 ==> r == []
  {
    if |xss| == 0 then [] else xss[0] + Flatten(xss[1..])
  }

  /** Two strings of the form `a:x` and `b:y` where neither `a` nor `b` holds
      a colon agree on the part before the first colon and on the rest. */
  lemma SplitAtFirstColon(a: string, x: string, b: string, y: string)
    requires ':' !in a && ':' !in b
    requires a + ":" + x == b + ":" + y
    ensures a == b && x == y
  {
    var s := a + ":" + x;
    assert s[..|a|] == a && s[|a|] == ':';
    assert s == b + ":" + y;
    assert s[..|b|] == b && s[|b|] == ':';
    IndexOfAt(s, ':', |a|);
    IndexOfAt(s, ':', |b|);
    assert a == s[..|a|] == b;
    assert x == s[|a| + 1..] == y;
  }
}

=== FILE: tx.dfy ===
/** `runInTx` (internal/postgresql/postgresql.go) and the repository's
    `CreateProduct` (internal/postgresql/product.go), which runs two inserts
    inside it. The driver's answers (begin, each statement, rollback, commit)
    are parameters; the database is the part of its state these two
    statements touch. */
module Transactions {
  import opened Wrappers
  import opened GoStrings
  import opened Errs
  import opened ProductParams

  /** The driver calls a transaction makes, in order. */
  datatype Step = Begin | Callback | Rollback | Commit

  datatype TxOutcome = TxOutcome(err: Option<Error>, steps: seq<Step>)

  /** The text `runInTx` builds when the rollback fails too. */
  function RollbackFailureText(txErr: Error, rbErr: Error): string
  {
    "tx err: " + Message(txErr) + ", rb err: " + Message(rbErr)
  }

  /** `runInTx`: begin, run the callback (whose result is `fnErr`), then roll
      back on failure or commit on success. */
  function RunInTx(beginErr: Option<Error>, fnErr: Option<Error>,
                   rollbackErr: Option<Error>, commitErr: Option<Error>): (r: TxOutcome)
    ensures |r.steps| >= 1 && r.steps[0] == Begin
    ensures Callback in r.steps <==> beginErr.None?
    ensures Commit in r.steps <==> beginErr.None? && fnErr.None?
    ensures Rollback in r.steps <==> beginErr.None? && fnErr.Some?
    ensures !(Commit in r.steps && Rollback in r.steps)
    ensures r.steps == [Begin] + (if beginErr.Some? then [] else [Callback] + (if fnErr.None? then [Commit] else [Rollback]))
    ensures r.err.None? <==> beginErr.None? && fnErr.None? && commitErr.None?
    ensures beginErr.Some? ==> r.err == beginErr
    ensures beginErr.None? && fnErr.None? ==> r.err == commitErr
    ensures beginErr.None? && fnErr.Some? && rollbackErr.None? ==> r.err == fnErr
    ensures beginErr.None? && fnErr.Some? && rollbackErr.Some? ==>
              r.err == Some(Plain(RollbackFailureText(fnErr.value, rollbackErr.value)))
  {
    if beginErr.Some? then TxOutcome(beginErr, [Begin])
    else if fnErr.None? then TxOutcome(commitErr, [Begin, Callback, Commit])
    else if rollbackErr.None? then TxOutcome(fnErr, [Begin, Callback, Rollback])
    else TxOutcome(Some(Plain(RollbackFailureText(fnErr.value, rollbackErr.value))), [Begin, Callback, Rollback])
  }

  /** When the rollback fails as well, both texts survive but the callback's
      error is formatted with `%v`, so `errors.As` no longer finds its type:
      a typed callback error then reads as a plain server error. */
  lemma RollbackFailureHidesKind(fnErr: Error, rbErr: Error, k: Kind)
    ensures var r := RunInTx(None, Some(fnErr), Some(rbErr), None);
            && r.err.Some?
            && !As(r.err.value, k)
            && ContainsString(Message(r.err.value), Message(fnErr))
            && ContainsString(Message(r.err.value), Message(rbErr))
  {
    var a, b := Message(fnErr), Message(rbErr);
    var s := RollbackFailureText(fnErr, rbErr);
    assert s == "tx err: " + a + ", rb err: " + b;
    assert HasPrefix(s[8..], a) by {
      assert s[8..][..|a|] == a;
    }
    var j := |s| - |b|;
    assert HasPrefix(s[j..], b) by {
      assert s[j..] == b;
    }
  }

  /** When the rollback succeeds the callback's error is returned as is, so
      `errors.As` sees exactly what the callback returned. */
  lemma RollbackSuccessKeepsKind(fnErr: Error, k: Kind)
    ensures var r := RunInTx(None, Some(fnErr), None, None);
            r.err.Some? && (As(r.err.value, k) <==> As(fnErr, k))
  {
  }

  /** A `products` row as inserted: name, quantity, price, product_type_name. */
  datatype ProductRow = ProductRow(name: string, quantity: int, price: int, productType: string)

  /** The state of the two tables the creation writes. */
  datatype Db = Db(types: set<string>, products: seq<ProductRow>)

  datatype Statement =
    /** `INSERT INTO product_types("name") VALUES($1) ON CONFLICT(name) DO NOTHING`. */
    | InsertType(name: string)
    /** `INSERT INTO products("name", quantity, price, product_type_name) VALUES(...)`. */
    | InsertProduct(row: ProductRow)

  function Apply(db: Db, s: Statement): Db
  {
    match s
    case InsertType(name) => db.(types := db.types + {name})
    case InsertProduct(row) => db.(products := db.products + [row])
  }

  /** The driver's answers to one creation: the begin error, the error of
      each statement by its position in the callback, and the rollback and
      commit errors. */
  datatype Driver = Driver(beginErr: Option<Error>, execErrs: map<nat, Error>,
                           rollbackErr: Option<Error>, commitErr: Option<Error>)

  function CreateStatements(req: CreateOrUpdateProductRequest): seq<Statement>
  {
    [InsertType(req.productType), InsertProduct(ProductRow(req.name, req.quantity, req.price, req.productType))]
  }

  /** The database once a creation has taken effect. */
  function Inserted(db: Db, req: CreateOrUpdateProductRequest): (after: Db)
    ensures after.types == db.types + {req.productType}
    ensures after.products == db.products + [ProductRow(req.name, req.quantity, req.price, req.productType)]
  {
    Apply(Apply(db, CreateStatements(req)[0]), CreateStatements(req)[1])
  }

  /** The callback passed to `runInTx`: the type upsert, then the row insert,
      returning the first statement error. */
  function CreateCallback(db: Db, req: CreateOrUpdateProductRequest, execErrs: map<nat, Error>): (r: (Db, Option<Error>))
    ensures r.1.None? <==> 0 !in execErrs && 1 !in execErrs
    ensures 0 in execErrs ==> r.1 == Some(execErrs[0])
    ensures 0 !in execErrs && 1 in execErrs ==> r.1 == Some(execErrs[1])
    ensures r.1.None? ==> r.0 == Inserted(db, req)
  {
    var stmts := CreateStatements(req);
    if 0 in execErrs then (db, Some(execErrs[0]))
    else
      var typed := Apply(db, stmts[0]);
      if 1 in execErrs then (typed, Some(execErrs[1]))
      else (Apply(typed, stmts[1]), None)
  }

  /** A creation as seen from outside: the database afterwards, the error
      returned to the caller, and the driver calls made. */
  datatype Created = Created(db: Db, err: Option<Error>, steps: seq<Step>)

  /** The transaction's effect: the callback's work is published only when
      begin, callback and commit all succeed. */
  function Transact(db: Db, req: CreateOrUpdateProductRequest, d: Driver): (r: (Db, TxOutcome))
    ensures r.1 == RunInTx(d.beginErr, if d.beginErr.None? then CreateCallback(db, req, d.execErrs).1 else None,
                           d.rollbackErr, d.commitErr)
    ensures r.1.err.None? ==> r.0 == Inserted(db, req)
    ensures r.1.err.Some? ==> r.0 == db
  {
    var cb := CreateCallback(db, req, d.execErrs);
    var fnErr := if d.beginErr.None? then cb.1 else None;
    var tx := RunInTx(d.beginErr, fnErr, d.rollbackErr, d.commitErr);
    (if tx.err.None? then cb.0 else db, tx)
  }

  /** `CreateProduct` as written: `runInTx`'s error is dropped and nil is
      returned whatever happened. */
  function CreateProductAsWritten(db: Db, req: CreateOrUpdateProductRequest, d: Driver): (r: Created)
    ensures r.err.None?
    ensures r.db == db || r.db == Inserted(db, req)
  {
    var (after, tx) := Transact(db, req, d);
    Created(after, None, tx.steps)
  }

  /** A failed begin leaves the database untouched and never runs the
      inserts, yet the as-written creation reports success. */
  lemma AsWrittenHidesFailure(db: Db, req: CreateOrUpdateProductRequest)
    ensures var r := CreateProductAsWritten(db, req, Driver(Some(Plain("connection refused")), map[], None, None));
            && r.err.None?
            && r.db == db
            && r.db != Inserted(db, req)
            && Callback !in r.steps
  {
    assert |Inserted(db, req).products| == |db.products| + 1;
  }

  /** `CreateProduct` returning `runInTx`'s error, as its signature promises. */
  function CreateProduct(db: Db, req: CreateOrUpdateProductRequest, d: Driver): (r: Created)
    ensures r.db == db || r.db == Inserted(db, req)
    ensures r.err.None? <==> d.beginErr.None? && 0 !in d.execErrs && 1 !in d.execErrs && d.commitErr.None?
  {
    var (after, tx) := Transact(db, req, d);
    Created(after, tx.err, tx.steps)
  }

  /** All or nothing, and reported truthfully: no error exactly when the type
      is present and one row was appended, an error exactly when nothing
      changed. */
  lemma CreateProductReportsEffect(db: Db, req: CreateOrUpdateProductRequest, d: Driver)
    ensures CreateProduct(db, req, d).err.None? <==> CreateProduct(db, req, d).db == Inserted(db, req)
    ensures CreateProduct(db, req, d).err.Some? <==> CreateProduct(db, req, d).db == db
  {
    assert |Inserted(db, req).products| == |db.products| + 1;
  }

  /** Creating a product whose type already exists leaves the type table as it was. */
  lemma ExistingTypeUnchanged(db: Db, req: CreateOrUpdateProductRequest, d: Driver)
    requires req.productType in db.types
    ensures CreateProduct(db, req, d).db.types == db.types
  {
  }
}

=== FILE: wrappers.dfy ===
/** Optional values and results shared by every module of the model. */
module Wrappers {

  /** A value that may be absent; `None` plays the role of Go's nil. */
  datatype Option<+T> = None | Some(value: T)

  /** A Go `(value, error)` pair where exactly one side is meaningful. */
  datatype Result<+R, +E> = Ok(value: R) | Err(error: E)
}
